=== FILE: README.md ===
# short_default in Dafny

A model of the `default!` procedural macro of the Rust crate `short_default`.
It also carries proofs about that model.

The macro takes a struct definition in which any field may carry an inline default, `name: Ty = expr`.
Its output has two parts:
- the same struct with the `= expr` annotations removed;
- an `impl Default` block whose `default()` builds the struct.

In the built value, each field gets its own expression if it has one.
A field without one gets `<Ty as Default>::default()`.

The model has the same two stages as the crate:

- **Parser** (`Parser`, over the tokens of `Syntax`, into the tree of `Custom`).
  - It reads a definition, in order:
    - outer attributes;
    - a visibility;
    - `struct` and a name;
    - generics;
    - a body: an optional where-clause, then a brace group or a `;`; or a paren group, an optional where-clause and a `;`.
  - It then reads each field as a standard field.
    - If the next token does not end the field, `= expr` is mandatory.
  - The where-clause found by the body parse becomes the generics' where-clause.
  - The leaf grammars of `syn` are opaque atoms:
    - attributes, visibility restrictions, identifiers, types, expressions, generic parameter lists and where-clauses.
  - One rule is a parameter, `FieldEnd`:
    - `CommaRequired` is the crate's behaviour.
    - `CommaOrEnd` is the corrected one (see "Findings").
- **Synthesizer** (`Synth`).
  - `IntoItemStruct` strips the defaults to rebuild the plain struct.
  - `ImplDefault` builds the `Default` impl. Its body is `Self { … }`, `Self ( … )` or `Self`.
  - The impl's generics are split the way `split_for_impl` does:
    - the impl header declares the parameters with their bounds;
    - the implementing type names them;
    - the where-clause is carried over.
- **Macro** (`Macro`).
  - `Expand` is the whole macro: parse the input, then pair the plain struct with the impl.
  - `Recover` is its inverse. From the struct and the impl together it rebuilds the parsed definition, so the expansion loses nothing.

`Printer` is a reference printer: it writes a parsed definition back as tokens.
The parser's round-trip lemmas in `ParserRoundTrip` are stated against it.
The converse lemmas in `ParserConverse` show that whatever the parser accepts is one of the printed forms.
So, under the corrected rule, the macro input parse accepts exactly the printed forms of well-formed definitions.
Under the rule as written it accepts exactly those printed forms that put a comma after every field, or whose last field carries a default.

`Examples` works through the whole macro:
- the documented `Config` example of src/lib.rs:12-25 (`MixedDefaults`);
- the five tests of tests/basic.rs. `GivenDefaults` is the shape of both `struct_def` and `default_values`; the others are `TypeDefault`, `GenericStruct` and `FieldAttributes`;
- the tuple and unit shapes, and inputs the macro refuses.
There, the field names, types and expressions are left as parameters, not literals.

The body dispatch follows the code.
A where-clause read before the body rules out a tuple body (src/lib.rs:316).
So `struct W<T> where T: Copy (T);` is refused.
This agrees with Rust's grammar: a tuple struct's where-clause comes after its parentheses, `struct W<T>(T) where T: Copy;`.

## Model

| member | source | states |
|---|---|---|
| Parser.ParseOuterAttrs | src/lib.rs:342 | reads the longest run of outer attributes, in order, and stops at the first token that is not one |
| Parser.ParseVisibility | src/lib.rs:343 | a leading `pub` token is consumed as that visibility; otherwise the visibility is inherited and nothing is consumed |
| Parser.ParseGenerics | src/lib.rs:346 | reads an optional generic parameter list, and always reads one that is there; the generics it returns never hold a where-clause |
| Parser.ParseOptWhere | src/lib.rs:310-315 | a where-clause is read exactly when the next token is one; otherwise nothing is consumed |
| Parser.ParseField | src/lib.rs:108 | a standard field consumes at least one token, and has a name exactly when it is parsed as a named field |
| Parser.ParseDefaultValue | src/lib.rs:98-104 | succeeds exactly on `=` followed by an expression, and yields that expression with both tokens consumed |
| Parser.ParseCustomField | src/lib.rs:107-131 | succeeds exactly when a standard field is read and is then either ended (by a comma, or under the corrected rule only by the end of the list) or followed by `= expr`; the field is that standard field, of the requested kind; it carries a default exactly when it was not ended, and the default is the expression after `=`; without a default nothing more is consumed |
| Parser.ParseTerminated | src/lib.rs:169 | every field of the list has the requested kind; empty content reads as an empty list |
| Parser.DataStruct | src/lib.rs:303-338 | fails on any token other than `where`, `(`, `{` or `;`; fails on a where-clause followed by `(` or by a second where-clause; after the optional where-clause, a brace group gives named fields (no `;`) read from its contents, and a `;` gives a unit body, each keeping the where-clause read first; a paren group with no where-clause before it gives positional fields read from its contents, the where-clause after it, and the `;` that must follow |
| Parser.ParseParsed | src/lib.rs:340-361 | every definition read is well formed: field kinds match the shape, and exactly the tuple and unit shapes end in `;` |
| Parser.ParseMacroInput | src/lib.rs:366 | the macro input is accepted exactly when a definition is read with no tokens left over, and the result is well formed |
| ParserRoundTrip.AttrsRoundTrip | src/lib.rs:342 | printed attributes read back as the same list, and the tail is left untouched |
| ParserRoundTrip.StdFieldRoundTrip | src/lib.rs:108 | a printed standard field of the right kind reads back as itself, whatever follows it |
| ParserRoundTrip.FieldRoundTrip | src/lib.rs:107-131 | a printed field with its default reads back as itself when a comma follows (or the end, if it has a default or under the corrected rule) |
| ParserRoundTrip.TerminatedRoundTrip | src/lib.rs:169 | a list printed with a comma after every field reads back as the same list, under either rule |
| ParserRoundTrip.SeparatedRoundTrip | src/lib.rs:169 | under the corrected rule, a list printed with commas only between fields reads back as the same list |
| ParserRoundTrip.AsWrittenRejectsBareLastField | src/lib.rs:109-113 | as written, a list printed without a trailing comma whose last field has no default is refused |
| ParserRoundTrip.AsWrittenAcceptsDefaultedLastField | src/lib.rs:109-110 | as written, a list printed without a trailing comma is still read back as itself when its last field carries a default, the `= expr` ending that field |
| ParserRoundTrip.DataStructRoundTrip | src/lib.rs:303-338 | a printed body of any of the three shapes, with its where-clause, reads back as the same body with nothing left |
| ParserRoundTrip.ParseRoundTrip | src/lib.rs:340-361 | every well-formed definition, printed with trailing commas, is read back by the macro input parse as itself under either rule |
| ParserRoundTrip.ParseSeparatedRoundTrip | src/lib.rs:340-361 | every well-formed definition, printed without trailing commas, is read back as itself under the corrected rule |
| ParserConverse.FieldPrinted | src/lib.rs:108 | whatever a standard field parse accepts is the printed field followed by the tokens left |
| ParserConverse.CustomFieldPrinted | src/lib.rs:107-131 | whatever a field parse accepts is the printed field with its default, followed by the tokens left |
| ParserConverse.TerminatedPrinted | src/lib.rs:169 | whatever content a field list parse accepts is that list printed with a comma after every field or with commas only between fields |
| ParserConverse.DataStructPrinted | src/lib.rs:303-338 | whatever a body parse accepts is the body read, printed in one of the two comma styles, followed by the tokens left |
| ParserConverse.MacroInputPrinted | src/lib.rs:340-366 | whatever the macro input parse accepts is a printed form of the definition read: with a generics token, or without one when there are no parameters |
| ParserConverse.ParseBareRoundTripWith | src/lib.rs:346 | a definition without generic parameters, printed without a generics token, reads back as itself |
| ParserConverse.PrintedFormReadsBack | src/lib.rs:340-366 | under the corrected rule, every printed form of a well-formed definition, with or without trailing commas and generics token, reads back as that definition |
| ParserConverse.ParsedExactlyWhenPrinted | src/lib.rs:340-366 | under the corrected rule, the macro input parse yields a definition exactly when the tokens are a printed form of it and it is well formed |
| ParserConverse.CorrectionOnlyAdds | src/lib.rs:109-126 | every input the rule as written accepts is accepted by the corrected rule and read the same way |
| ParserConverse.AsWrittenListExactly | src/lib.rs:169 | as written, a field list parse yields a list exactly when its fields have the requested kind and the content is the list with a comma after every field, or without the last comma when the last field carries a default (or the list is empty) |
| ParserConverse.AsWrittenRefusesBareForm | src/lib.rs:109-113 | as written, a well-formed definition whose last field has no default, printed without trailing commas, is refused by the macro input parse |
| ParserConverse.AsWrittenParsedExactly | src/lib.rs:340-366 | as written, the macro input parse yields a definition exactly when it is well formed and the tokens print it with trailing commas, or in either comma style when its last field carries a default |
| FieldEndRule.BareLastFieldHadComma | src/lib.rs:122-126 | as written, whenever a list whose last field has no default is accepted, its tokens end with a comma |
| Synth.NamedDefaults | src/lib.rs:140-161 | one entry per field, in order, with the field's name; the value is the field's expression when it has one, else the default of the field's type |
| Synth.UnnamedDefaults | src/lib.rs:180-195 | one positional value per field, in order; the field's expression when it has one, else the default of the field's type |
| Synth.StripDefaults | src/lib.rs:240 | the plain fields are exactly the standard part of each field, same length and order |
| Synth.SplitForImpl | src/lib.rs:277 | the impl declares each parameter with its bounds; the type names each parameter in order; the where-clause is the definition's |
| Synth.SplitIdentifiesGenerics | src/lib.rs:277 | two generics lists are split alike exactly when they have the same parameter names, bounds and where-clause: the split forgets only the parameters' default types |
| Synth.IntoItemStruct | src/lib.rs:225-264 | attributes, visibility, name, generics and `;` are unchanged; the shape is kept; the field list is the stripped list, same length and order |
| Synth.ImplDefault | src/lib.rs:266-300 | the impl is for the struct's name, with the struct's generics split; its body has the struct's shape and one value per field |
| Macro.ConstructorFitsStruct | src/lib.rs:278-299 | the impl is for the plain struct's name and generics; its body sets each field of the plain struct, by name or position, and a type default is of that field's type |
| Macro.RecoverField | src/lib.rs:150-156 | a field and its built value can be undone exactly when the value fits the field, and then give back the field and its default |
| Macro.RecoverNamed | src/lib.rs:140-161 | a recovered named list strips to the given fields and rebuilds the given entries |
| Macro.RecoverUnnamed | src/lib.rs:180-195 | a recovered positional list strips to the given fields and rebuilds the given values |
| Macro.Recover | src/lib.rs:225-300 | a definition recovered from a struct and an impl rebuilds that very struct and impl |
| Macro.RecoverNamedInverse | src/lib.rs:140-161 | the stripped fields and built entries of any named list recover that list |
| Macro.RecoverUnnamedInverse | src/lib.rs:180-195 | the stripped fields and built values of any positional list recover that list |
| Macro.ExpansionLossless | src/lib.rs:225-300 | the struct and impl built from any definition recover that definition: no annotation is lost |
| Macro.Expand | src/lib.rs:363-376 | expansion succeeds exactly when the input parses; the impl fits the struct; together they recover the parsed definition |
| Examples.GivenDefaults | tests/basic.rs:20-30 | `pub struct Config { a: A = x, b: B = y, }` gives the plain struct and `Self { a: x, b: y }` |
| Examples.TypeDefault | tests/basic.rs:33-41 | `struct Person { name: String, }` gives `Self { name: <String as Default>::default() }` |
| Examples.GenericStruct | tests/basic.rs:44-52 | `struct MyVec<T> { inner: Vec<T>, }` gives an impl that declares `T` and is for `MyVec<T>` |
| Examples.MixedDefaults | src/lib.rs:12-25 | `struct Config { version: V = v, authors: A, }` gives the plain struct and `Self { version: v, authors: <A as Default>::default() }` |
| Examples.FieldAttributes | tests/basic.rs:54-70 | `#[derive(..)] struct Chili { #[doc] hunger: f32 = 9.0, }` keeps the struct's and the field's attributes on the plain struct and gives `Self { hunger: 9.0 }` |
| Examples.BareLastField | src/lib.rs:109-113 | `struct Person { name: String }` is refused as written, and under the corrected rule expands as the same struct with a trailing comma |
| Examples.TupleStruct | src/lib.rs:316-325 | `struct W(A = x, B,);` gives the tuple struct and `Self(x, <B as Default>::default())` |
| Examples.UnitStruct | src/lib.rs:332-334 | `struct U;` gives the unit struct and a bare `Self` |
| Examples.WhereBeforeTupleRejected | src/lib.rs:312-316 | a where-clause before a tuple's parentheses is refused |
| Examples.TupleWithoutSemiRejected | src/lib.rs:323-328 | a tuple struct without its `;` is refused |
| Examples.TrailingTokensRejected | src/lib.rs:366 | tokens left after a complete definition are refused |
| Examples.TwoExpressionsRejected | src/lib.rs:169 | a field whose expression is followed by another token before the comma is refused |

## Left out

- Spans, hygiene and error message texts: every parse error is the single value `SyntaxError`.
- The `struct`, brace, paren, `=` and `;` token values that the crate stores and prints back: the model keeps only whether a `;` was present.
- Whether a `Punctuated` list kept its trailing comma. The model's field lists are plain sequences, so `IntoItemStruct` does not record it (the crate's `from_iter` does not keep it either).
- `quote!` printing and the `proc_macro::TokenStream` conversions. The expansion is the pair (plain struct, impl) as syntax trees, not as tokens.
- The `const _: () = { … };` wrapper around the impl (src/lib.rs:371-373): it only scopes the impl and changes no value.
- The internal grammars of `syn::Attribute`, `Visibility`, `Ident`, `Type`, `Expr`, `Generics` and `WhereClause`. These are one opaque token each, and an expression never takes in a top-level comma.
- Whether each field type implements `Default`, and the type checking of the default expressions: the Rust compiler does both later. The model emits a symbolic `DefaultCall(ty)`.
- The float fields and `approx` comparisons of tests/basic.rs, and the prose of the crate's documentation.

## Findings

| source | as written | input that shows it | evidently intended | confidence | as-written member | corrected member |
|---|---|---|---|---|---|---|
| src/lib.rs:109-113 (and 122-126) | a field without `= expr` is accepted only when a `,` follows it, so a last field with no default and no trailing comma makes the parser demand `=` | `struct Person { name: String }` (and `struct W(u8);`) | the end of the field list also ends a field, as for a standard struct; `parse_terminated` allows the trailing comma to be left out | not executed | ParserRoundTrip.AsWrittenRejectsBareLastField | ParserConverse.ParsedExactlyWhenPrinted |

=== FILE: converse.dfy ===
/**
 * The converse of the round trips: every input the parser accepts is one
 * the reference printer writes, so the parser reads nothing beyond the
 * grammar. Together with the round trips, the corrected rule accepts
 * exactly the printed forms of well-formed definitions, and the rule as
 * written accepts a subset of them with the same results.
 */
module ParserConverse {
  import opened Wrappers
  import opened Syntax
  import opened Custom
  import opened Parser
  import opened Printer
  import opened ParserRoundTrip
  import opened FieldEndRule

  lemma AttrsPrinted(ts: seq<Token>)
    ensures ts == AttrTokens(ParseOuterAttrs(ts).value) + ParseOuterAttrs(ts).rest
  {
    var r := ParseOuterAttrs(ts);
    var n := |r.value|;
    assert ts[..n] == AttrTokens(r.value);
    assert ts == ts[..n] + ts[n..];
  }

  lemma VisPrinted(ts: seq<Token>)
    ensures ts == VisTokens(ParseVisibility(ts).value) + ParseVisibility(ts).rest
  {
    if ParseVisibility(ts).value.Pub? {
      assert ts == [ts[0]] + ts[1..];
    }
  }

  lemma WherePrinted(ts: seq<Token>)
    ensures ts == WhereTokens(ParseOptWhere(ts).value) + ParseOptWhere(ts).rest
  {
    if ParseOptWhere(ts).value.Some? {
      assert ts == [ts[0]] + ts[1..];
    }
  }

  /** A standard field is read only from its own printed tokens. */
  lemma FieldPrinted(ts: seq<Token>, kind: FieldKind)
    requires ParseField(ts, kind).Success?
    ensures ts == FieldTokens(ParseField(ts, kind).value.value) + ParseField(ts, kind).value.rest
  {
    var attrs := ParseOuterAttrs(ts);
    var vis := ParseVisibility(attrs.rest);
    var r := ParseField(ts, kind).value;
    AttrsPrinted(ts);
    VisPrinted(attrs.rest);
    FieldTail(ts, kind);
    Assemble(ts, attrs.rest, vis.rest, r.value, r.rest);
  }

  /** After the attributes and the visibility, a standard field's name and type are printed. */
  lemma FieldTail(ts: seq<Token>, kind: FieldKind)
    requires ParseField(ts, kind).Success?
    ensures var attrs := ParseOuterAttrs(ts);
            var vis := ParseVisibility(attrs.rest);
            var r := ParseField(ts, kind).value;
            r.value.attrs == attrs.value && r.value.vis == vis.value &&
            vis.rest == NameAndType(r.value) + r.rest
  {
    var vis := ParseVisibility(ParseOuterAttrs(ts).rest);
    var r := ParseField(ts, kind).value;
    NameAndTypePrinted(vis.rest, kind, r.value, r.rest);
  }

  lemma NameAndTypePrinted(ts1: seq<Token>, kind: FieldKind, f: Field, rest: seq<Token>)
    requires kind == NamedField ==>
               |ts1| >= 3 && ts1[0].IdentTok? && f.ident == Some(ts1[0].ident) && ts1[1] == Colon &&
               ts1[2] == TyTok(f.ty) && rest == ts1[3..]
    requires kind == UnnamedField ==> f.ident.None? && |ts1| >= 1 && ts1[0] == TyTok(f.ty) && rest == ts1[1..]
    ensures ts1 == NameAndType(f) + rest
  {
    match kind {
      case NamedField =>
        assert ts1 == [ts1[0], ts1[1], ts1[2]] + ts1[3..];
      case UnnamedField =>
        assert ts1 == [ts1[0]] + ts1[1..];
    }
  }

  lemma Assemble(ts: seq<Token>, rest1: seq<Token>, rest2: seq<Token>, f: Field, rest: seq<Token>)
    requires ts == AttrTokens(f.attrs) + rest1
    requires rest1 == VisTokens(f.vis) + rest2
    requires rest2 == NameAndType(f) + rest
    ensures ts == FieldTokens(f) + rest
  {
  }

  /** A field of the extended grammar is read only from its own printed tokens, `= expr` included. */
  lemma CustomFieldPrinted(ts: seq<Token>, kind: FieldKind, rule: FieldEnd)
    requires ParseCustomField(ts, kind, rule).Success?
    ensures ts == CustomFieldTokens(ParseCustomField(ts, kind, rule).value.value) + ParseCustomField(ts, kind, rule).value.rest
  {
    var c := ParseCustomField(ts, kind, rule).value;
    var f := ParseField(ts, kind).value;
    FieldPrinted(ts, kind);
    if c.value.defaultValue.Some? {
      DefaultPrinted(f.rest, c.value.defaultValue.value, c.rest);
    }
    AssembleCustom(ts, c.value, f.rest, c.rest);
  }

  lemma DefaultPrinted(after: seq<Token>, d: DefaultValue, rest: seq<Token>)
    requires ParseDefaultValue(after) == Success(Step(d, rest))
    ensures after == DefaultTokens(Some(d)) + rest
  {
    assert after == [after[0], after[1]] + after[2..];
  }

  lemma AssembleCustom(ts: seq<Token>, c: CustomField, after: seq<Token>, rest: seq<Token>)
    requires ts == FieldTokens(c.field) + after
    requires after == DefaultTokens(c.defaultValue) + rest
    ensures ts == CustomFieldTokens(c) + rest
  {
  }

  /** Accepted field list content is the list printed with, or without, a comma after the last field. */
  lemma {:induction false} TerminatedPrinted(ts: seq<Token>, kind: FieldKind, rule: FieldEnd)
    requires ParseTerminated(ts, kind, rule).Success?
    ensures ts == TerminatedTokens(ParseTerminated(ts, kind, rule).value) ||
            ts == SeparatedTokens(ParseTerminated(ts, kind, rule).value)
    decreases |ts|
  {
    if ts != [] {
      TerminatedUnfold(ts, kind, rule);
      var c := ParseCustomField(ts, kind, rule).value;
      CustomFieldPrinted(ts, kind, rule);
      if c.rest == [] {
        LastStep(ts, c.value);
      } else {
        var more := c.rest[1..];
        TerminatedPrinted(more, kind, rule);
        ListStep(ts, c.value, c.rest, ParseTerminated(more, kind, rule).value);
      }
    }
  }

  /** A single field with nothing after it is a list printed without a trailing comma. */
  lemma LastStep(ts: seq<Token>, f: CustomField)
    requires ts == CustomFieldTokens(f) + []
    ensures ts == SeparatedTokens([f])
  {
  }

  /** One more field, a comma and a printed list make a printed list. */
  lemma ListStep(ts: seq<Token>, f: CustomField, after: seq<Token>, tail: seq<CustomField>)
    requires ts == CustomFieldTokens(f) + after
    requires after != [] && after[0] == Comma
    requires after[1..] == TerminatedTokens(tail) || after[1..] == SeparatedTokens(tail)
    ensures ts == TerminatedTokens([f] + tail) || ts == SeparatedTokens([f] + tail)
  {
    var more := after[1..];
    assert after == [Comma] + more;
    var fs := [f] + tail;
    assert fs[0] == f && fs[1..] == tail;
    if more == TerminatedTokens(tail) {
      assert ts == TerminatedTokens(fs);
    } else {
      assert ts == SeparatedTokens(fs);
    }
  }

  /** Accepted body tokens are a printed body, followed by whatever the parse left. */
  lemma DataStructPrinted(ts: seq<Token>, rule: FieldEnd)
    requires DataStruct(ts, rule).Success?
    ensures var b := DataStruct(ts, rule).value;
            ts == BodyTokens(b.value.fields, b.value.whereClause, TerminatedTokens) + b.rest ||
            ts == BodyTokens(b.value.fields, b.value.whereClause, SeparatedTokens) + b.rest
  {
    var b := DataStruct(ts, rule).value;
    match b.value.fields {
      case Named(fs) => BracedBodyPrinted(ts, rule);
      case Unnamed(fs) => ParenBodyPrinted(ts, rule);
      case Unit => UnitBodyPrinted(ts, rule);
    }
  }

  lemma BracedBodyPrinted(ts: seq<Token>, rule: FieldEnd)
    requires DataStruct(ts, rule).Success? && DataStruct(ts, rule).value.value.fields.Named?
    ensures var b := DataStruct(ts, rule).value;
            ts == BodyTokens(b.value.fields, b.value.whereClause, TerminatedTokens) + b.rest ||
            ts == BodyTokens(b.value.fields, b.value.whereClause, SeparatedTokens) + b.rest
  {
    var b := DataStruct(ts, rule).value;
    WherePrinted(ts);
    BracedAfterWhere(ts, ParseOptWhere(ts), b.value.fields.named, b.rest, rule);
  }

  lemma BracedAfterWhere(ts: seq<Token>, lead: Step<Option<WhereClause>>, fs: seq<CustomField>, rest: seq<Token>, rule: FieldEnd)
    requires ts == WhereTokens(lead.value) + lead.rest
    requires |lead.rest| > 0 && lead.rest[0].Brace? && rest == lead.rest[1..]
    requires ParseTerminated(lead.rest[0].inner, NamedField, rule) == Success(fs)
    ensures ts == BodyTokens(Named(fs), lead.value, TerminatedTokens) + rest ||
            ts == BodyTokens(Named(fs), lead.value, SeparatedTokens) + rest
  {
    var inner := lead.rest[0].inner;
    TerminatedPrinted(inner, NamedField, rule);
    BraceSplit(ts, lead.value, lead.rest, rest);
    BracedPrinted(ts, lead.value, inner, fs, rest);
  }

  lemma BraceSplit(ts: seq<Token>, w: Option<WhereClause>, after: seq<Token>, rest: seq<Token>)
    requires ts == WhereTokens(w) + after
    requires |after| > 0 && after[0].Brace? && rest == after[1..]
    ensures ts == WhereTokens(w) + ([Brace(after[0].inner)] + rest)
  {
    assert after == [Brace(after[0].inner)] + rest;
  }

  lemma ParenBodyPrinted(ts: seq<Token>, rule: FieldEnd)
    requires DataStruct(ts, rule).Success? && DataStruct(ts, rule).value.value.fields.Unnamed?
    ensures var b := DataStruct(ts, rule).value;
            ts == BodyTokens(b.value.fields, b.value.whereClause, TerminatedTokens) + b.rest ||
            ts == BodyTokens(b.value.fields, b.value.whereClause, SeparatedTokens) + b.rest
  {
    var b := DataStruct(ts, rule).value;
    WherePrinted(ts[1..]);
    ParenAfterFields(ts, b.value.fields.unnamed, ParseOptWhere(ts[1..]), b.rest, rule);
  }

  lemma ParenAfterFields(ts: seq<Token>, fs: seq<CustomField>, trail: Step<Option<WhereClause>>, rest: seq<Token>, rule: FieldEnd)
    requires |ts| > 0 && ts[0].Paren?
    requires ParseTerminated(ts[0].inner, UnnamedField, rule) == Success(fs)
    requires ts[1..] == WhereTokens(trail.value) + trail.rest
    requires |trail.rest| > 0 && trail.rest[0] == Semi && rest == trail.rest[1..]
    ensures ts == BodyTokens(Unnamed(fs), trail.value, TerminatedTokens) + rest ||
            ts == BodyTokens(Unnamed(fs), trail.value, SeparatedTokens) + rest
  {
    var inner := ts[0].inner;
    TerminatedPrinted(inner, UnnamedField, rule);
    ParenSplit(ts, trail.value, trail.rest, rest);
    ParenPrinted(ts, trail.value, inner, fs, rest);
  }

  lemma ParenSplit(ts: seq<Token>, w: Option<WhereClause>, after: seq<Token>, rest: seq<Token>)
    requires |ts| > 0 && ts[0].Paren? && ts[1..] == WhereTokens(w) + after
    requires |after| > 0 && after[0] == Semi && rest == after[1..]
    ensures ts == [Paren(ts[0].inner)] + (WhereTokens(w) + ([Semi] + rest))
  {
    assert after == [Semi] + rest;
    assert ts == [Paren(ts[0].inner)] + ts[1..];
  }

  lemma UnitBodyPrinted(ts: seq<Token>, rule: FieldEnd)
    requires DataStruct(ts, rule).Success? && DataStruct(ts, rule).value.value.fields.Unit?
    ensures var b := DataStruct(ts, rule).value;
            ts == BodyTokens(b.value.fields, b.value.whereClause, TerminatedTokens) + b.rest
  {
    WherePrinted(ts);
    UnitAfterWhere(ts, ParseOptWhere(ts), DataStruct(ts, rule).value.rest);
  }

  lemma UnitAfterWhere(ts: seq<Token>, lead: Step<Option<WhereClause>>, rest: seq<Token>)
    requires ts == WhereTokens(lead.value) + lead.rest
    requires |lead.rest| > 0 && lead.rest[0] == Semi && rest == lead.rest[1..]
    ensures ts == BodyTokens(Unit, lead.value, TerminatedTokens) + rest
  {
    assert lead.rest == [Semi] + rest;
  }

  lemma BracedPrinted(ts: seq<Token>, w: Option<WhereClause>, inner: seq<Token>, fs: seq<CustomField>, rest: seq<Token>)
    requires ts == WhereTokens(w) + ([Brace(inner)] + rest)
    requires inner == TerminatedTokens(fs) || inner == SeparatedTokens(fs)
    ensures ts == BodyTokens(Named(fs), w, TerminatedTokens) + rest ||
            ts == BodyTokens(Named(fs), w, SeparatedTokens) + rest
  {
    var wt := WhereTokens(w);
    assert ts == (wt + [Brace(inner)]) + rest;
    if inner == TerminatedTokens(fs) {
      assert BodyTokens(Named(fs), w, TerminatedTokens) == wt + [Brace(inner)];
    } else {
      assert BodyTokens(Named(fs), w, SeparatedTokens) == wt + [Brace(inner)];
    }
  }

  lemma ParenPrinted(ts: seq<Token>, w: Option<WhereClause>, inner: seq<Token>, fs: seq<CustomField>, rest: seq<Token>)
    requires ts == [Paren(inner)] + (WhereTokens(w) + ([Semi] + rest))
    requires inner == TerminatedTokens(fs) || inner == SeparatedTokens(fs)
    ensures ts == BodyTokens(Unnamed(fs), w, TerminatedTokens) + rest ||
            ts == BodyTokens(Unnamed(fs), w, SeparatedTokens) + rest
  {
    var wt := WhereTokens(w);
    assert ts == ([Paren(inner)] + (wt + [Semi])) + rest;
    if inner == TerminatedTokens(fs) {
      assert BodyTokens(Unnamed(fs), w, TerminatedTokens) == [Paren(inner)] + (wt + [Semi]);
    } else {
      assert BodyTokens(Unnamed(fs), w, SeparatedTokens) == [Paren(inner)] + (wt + [Semi]);
    }
  }

  /** `struct`, the name and the generics token, which may be left out when it lists nothing. */
  predicate HeadOf(head: seq<Token>, p: Parsed) {
    head == [StructKw, IdentTok(p.ident), GenericsTok(p.generics.params)] ||
    (head == [StructKw, IdentTok(p.ident)] && p.generics.params == [])
  }

  predicate BodyOf(body: seq<Token>, p: Parsed) {
    body == BodyTokens(p.fields, p.generics.whereClause, TerminatedTokens) ||
    body == BodyTokens(p.fields, p.generics.whereClause, SeparatedTokens)
  }

  /** Every accepted macro input is a printed form of the definition read from it. */
  lemma MacroInputPrinted(ts: seq<Token>, rule: FieldEnd)
    requires ParseMacroInput(ts, rule).Success?
    ensures PrintedForm(ts, ParseMacroInput(ts, rule).value)
  {
    var p := ParseMacroInput(ts, rule).value;
    var attrs := ParseOuterAttrs(ts);
    var vis := ParseVisibility(attrs.rest);
    AttrsPrinted(ts);
    VisPrinted(attrs.rest);
    var head, body := AfterVisPrinted(vis.rest, p, rule);
    HeaderPrinted(ts, p, vis.rest, head, body);
  }

  lemma AfterVisPrinted(ts1: seq<Token>, p: Parsed, rule: FieldEnd) returns (head: seq<Token>, body: seq<Token>)
    requires |ts1| >= 2 && ts1[0] == StructKw && ts1[1] == IdentTok(p.ident)
    requires ParseGenerics(ts1[2..]).value.params == p.generics.params
    requires DataStruct(ParseGenerics(ts1[2..]).rest, rule)
             == Success(Step(Body(p.generics.whereClause, p.fields, p.semiToken), []))
    ensures ts1 == head + body && HeadOf(head, p) && BodyOf(body, p)
  {
    var gen := ParseGenerics(ts1[2..]);
    body := gen.rest;
    DataStructPrinted(body, rule);
    BodyOfParsed(body, p);
    head := GenericsPrinted(ts1, p, gen);
  }

  lemma BodyOfParsed(body: seq<Token>, p: Parsed)
    requires body == BodyTokens(p.fields, p.generics.whereClause, TerminatedTokens) + [] ||
             body == BodyTokens(p.fields, p.generics.whereClause, SeparatedTokens) + []
    ensures BodyOf(body, p)
  {
  }

  lemma GenericsPrinted(ts1: seq<Token>, p: Parsed, gen: Step<Generics>) returns (head: seq<Token>)
    requires |ts1| >= 2 && ts1[0] == StructKw && ts1[1] == IdentTok(p.ident)
    requires gen == ParseGenerics(ts1[2..]) && gen.value.params == p.generics.params
    ensures ts1 == head + gen.rest && HeadOf(head, p)
  {
    assert ts1 == [StructKw, IdentTok(p.ident)] + ts1[2..];
    if gen.rest == ts1[2..] {
      head := [StructKw, IdentTok(p.ident)];
    } else {
      head := [StructKw, IdentTok(p.ident), GenericsTok(p.generics.params)];
      assert ts1[2..] == [GenericsTok(p.generics.params)] + gen.rest;
    }
  }

  lemma HeaderPrinted(ts: seq<Token>, p: Parsed, ts1: seq<Token>, head: seq<Token>, body: seq<Token>)
    requires ts == AttrTokens(p.attrs) + (VisTokens(p.vis) + ts1)
    requires ts1 == head + body && HeadOf(head, p) && BodyOf(body, p)
    ensures PrintedForm(ts, p)
  {
  }

  /** A body printed by `BodyTokens` never starts with a generics token. */
  lemma BodyStart(fields: CustomFields, w: Option<WhereClause>, list: seq<CustomField> -> seq<Token>)
    ensures BodyTokens(fields, w, list) != [] && !BodyTokens(fields, w, list)[0].GenericsTok?
  {
  }

  /** The header without a generics token, before any body that `DataStruct` reads back. */
  lemma BareHeaderThenBody(p: Parsed, body: seq<Token>, rule: FieldEnd)
    requires p.generics.params == []
    requires body != [] && !body[0].GenericsTok?
    requires DataStruct(body, rule) == Success(Step(Body(p.generics.whereClause, p.fields, p.semiToken), []))
    ensures ParseMacroInput(AttrTokens(p.attrs) + (VisTokens(p.vis) + ([StructKw, IdentTok(p.ident)] + body)), rule)
            == Success(p)
  {
    var rest2 := [StructKw, IdentTok(p.ident)] + body;
    var rest1 := VisTokens(p.vis) + rest2;
    var ts := AttrTokens(p.attrs) + rest1;
    assert rest1[0].PubTok? || rest1[0] == StructKw;
    AttrsRoundTrip(p.attrs, rest1);
    VisRoundTrip(p.vis, rest2);
    DropPrefix([StructKw, IdentTok(p.ident)], body);
    ParseParsedAfterBareHeader(ts, p, rest1, rest2, rule);
  }

  lemma ParseParsedAfterBareHeader(ts: seq<Token>, p: Parsed, rest1: seq<Token>, rest2: seq<Token>, rule: FieldEnd)
    requires p.generics.params == []
    requires ParseOuterAttrs(ts) == Step(p.attrs, rest1)
    requires ParseVisibility(rest1) == Step(p.vis, rest2)
    requires |rest2| >= 3 && rest2[0] == StructKw && rest2[1] == IdentTok(p.ident) && !rest2[2].GenericsTok?
    requires DataStruct(rest2[2..], rule) == Success(Step(Body(p.generics.whereClause, p.fields, p.semiToken), []))
    ensures ParseMacroInput(ts, rule) == Success(p)
  {
  }

  lemma ParseBareRoundTripWith(p: Parsed, list: seq<CustomField> -> seq<Token>, rule: FieldEnd)
    requires WellFormed(p) && ListReadsBack(p.fields, list, rule) && p.generics.params == []
    ensures ParseMacroInput(PrintBareWith(p, list), rule) == Success(p)
  {
    DataStructRoundTrip(p.fields, p.generics.whereClause, list, rule);
    BodyStart(p.fields, p.generics.whereClause, list);
    BareHeaderThenBody(p, BodyTokens(p.fields, p.generics.whereClause, list), rule);
  }

  /** Under the corrected rule both field-list printers read back. */
  lemma ListsReadBack(fields: CustomFields)
    requires KindsMatch(fields)
    ensures ListReadsBack(fields, TerminatedTokens, CommaOrEnd)
    ensures ListReadsBack(fields, SeparatedTokens, CommaOrEnd)
  {
    match fields {
      case Named(fs) =>
        TerminatedRoundTrip(fs, NamedField, CommaOrEnd);
        SeparatedRoundTrip(fs, NamedField);
      case Unnamed(fs) =>
        TerminatedRoundTrip(fs, UnnamedField, CommaOrEnd);
        SeparatedRoundTrip(fs, UnnamedField);
      case Unit =>
    }
  }

  /** Every printed form of a well-formed definition reads back under the corrected rule. */
  lemma PrintedFormReadsBack(ts: seq<Token>, p: Parsed)
    requires WellFormed(p) && PrintedForm(ts, p)
    ensures ParseMacroInput(ts, CommaOrEnd) == Success(p)
  {
    ListsReadBack(p.fields);
    if ts == PrintWith(p, TerminatedTokens) {
      ParseRoundTripWith(p, TerminatedTokens, CommaOrEnd);
    } else if ts == PrintWith(p, SeparatedTokens) {
      ParseRoundTripWith(p, SeparatedTokens, CommaOrEnd);
    } else if ts == PrintBareWith(p, TerminatedTokens) {
      ParseBareRoundTripWith(p, TerminatedTokens, CommaOrEnd);
    } else {
      ParseBareRoundTripWith(p, SeparatedTokens, CommaOrEnd);
    }
  }

  /**
   * Under the corrected rule the macro accepts exactly the printed forms of
   * well-formed definitions, and reads each as the definition printed.
   */
  lemma ParsedExactlyWhenPrinted(ts: seq<Token>, p: Parsed)
    ensures ParseMacroInput(ts, CommaOrEnd) == Success(p) <==> WellFormed(p) && PrintedForm(ts, p)
  {
    if ParseMacroInput(ts, CommaOrEnd) == Success(p) {
      MacroInputPrinted(ts, CommaOrEnd);
    }
    if WellFormed(p) && PrintedForm(ts, p) {
      PrintedFormReadsBack(ts, p);
    }
  }

  /** The correction only adds inputs: whatever the rule as written accepts, it reads the same way. */
  lemma CorrectionOnlyAdds(ts: seq<Token>)
    requires ParseMacroInput(ts, CommaRequired).Success?
    ensures ParseMacroInput(ts, CommaOrEnd) == ParseMacroInput(ts, CommaRequired)
  {
    var p := ParseMacroInput(ts, CommaRequired).value;
    MacroInputPrinted(ts, CommaRequired);
    PrintedFormReadsBack(ts, p);
  }

  /**
   * As written, a field list is read exactly from the list printed with a
   * comma after every field, or without the last comma when the last field
   * carries its default.
   */
  lemma AsWrittenListExactly(ts: seq<Token>, kind: FieldKind, fs: seq<CustomField>)
    ensures ParseTerminated(ts, kind, CommaRequired) == Success(fs) <==>
            AllOfKind(fs, kind) && (ts == TerminatedTokens(fs) || (LastDefaulted(fs) && ts == SeparatedTokens(fs)))
  {
    if ParseTerminated(ts, kind, CommaRequired) == Success(fs) {
      TerminatedPrinted(ts, kind, CommaRequired);
      if ts != TerminatedTokens(fs) && !LastDefaulted(fs) {
        AsWrittenRejectsBareLastField(fs, kind);
      }
    }
    if AllOfKind(fs, kind) {
      if ts == TerminatedTokens(fs) {
        TerminatedRoundTrip(fs, kind, CommaRequired);
      } else if LastDefaulted(fs) && ts == SeparatedTokens(fs) && fs != [] {
        AsWrittenAcceptsDefaultedLastField(fs, kind);
      }
    }
  }

  /** After a printed header with its generics token, the whole parse succeeds only if the body parse does. */
  lemma HeaderReduces(p: Parsed, body: seq<Token>, rule: FieldEnd)
    requires ParseParsed(AttrTokens(p.attrs) + (VisTokens(p.vis) +
               ([StructKw, IdentTok(p.ident), GenericsTok(p.generics.params)] + body)), rule).Success?
    ensures DataStruct(body, rule).Success?
  {
    var rest2 := [StructKw, IdentTok(p.ident), GenericsTok(p.generics.params)] + body;
    var rest1 := VisTokens(p.vis) + rest2;
    assert rest1[0].PubTok? || rest1[0] == StructKw;
    AttrsRoundTrip(p.attrs, rest1);
    VisRoundTrip(p.vis, rest2);
    DropPrefix([StructKw, IdentTok(p.ident), GenericsTok(p.generics.params)], body);
    ReducesAfterHeader(AttrTokens(p.attrs) + rest1, p, rest1, rest2, rule);
  }

  lemma ReducesAfterHeader(ts: seq<Token>, p: Parsed, rest1: seq<Token>, rest2: seq<Token>, rule: FieldEnd)
    requires ParseOuterAttrs(ts) == Step(p.attrs, rest1)
    requires ParseVisibility(rest1) == Step(p.vis, rest2)
    requires |rest2| >= 3 && rest2[0] == StructKw && rest2[1] == IdentTok(p.ident)
    requires rest2[2] == GenericsTok(p.generics.params)
    requires ParseParsed(ts, rule).Success?
    ensures DataStruct(rest2[3..], rule).Success?
  {
    assert rest2[2..][1..] == rest2[3..];
  }

  /** The same without a generics token. */
  lemma BareHeaderReduces(p: Parsed, body: seq<Token>, rule: FieldEnd)
    requires body != [] && !body[0].GenericsTok?
    requires ParseParsed(AttrTokens(p.attrs) + (VisTokens(p.vis) + ([StructKw, IdentTok(p.ident)] + body)), rule).Success?
    ensures DataStruct(body, rule).Success?
  {
    var rest2 := [StructKw, IdentTok(p.ident)] + body;
    var rest1 := VisTokens(p.vis) + rest2;
    assert rest1[0].PubTok? || rest1[0] == StructKw;
    AttrsRoundTrip(p.attrs, rest1);
    VisRoundTrip(p.vis, rest2);
    DropPrefix([StructKw, IdentTok(p.ident)], body);
    ReducesAfterBareHeader(AttrTokens(p.attrs) + rest1, p, rest1, rest2, rule);
  }

  lemma ReducesAfterBareHeader(ts: seq<Token>, p: Parsed, rest1: seq<Token>, rest2: seq<Token>, rule: FieldEnd)
    requires ParseOuterAttrs(ts) == Step(p.attrs, rest1)
    requires ParseVisibility(rest1) == Step(p.vis, rest2)
    requires |rest2| >= 3 && rest2[0] == StructKw && rest2[1] == IdentTok(p.ident) && !rest2[2].GenericsTok?
    requires ParseParsed(ts, rule).Success?
    ensures DataStruct(rest2[2..], rule).Success?
  {
  }

  /** A printed body is read only if its field list is. */
  lemma BodyListParses(fields: CustomFields, w: Option<WhereClause>, list: seq<CustomField> -> seq<Token>, rule: FieldEnd)
    requires DataStruct(BodyTokens(fields, w, list), rule).Success?
    ensures fields.Named? ==> ParseTerminated(list(fields.named), NamedField, rule).Success?
    ensures fields.Unnamed? ==> ParseTerminated(list(fields.unnamed), UnnamedField, rule).Success?
  {
    var body := BodyTokens(fields, w, list);
    match fields {
      case Named(fs) =>
        assert ParseOptWhere(body) == Step(w, [Brace(list(fs))]);
      case Unnamed(fs) =>
        assert body[0] == Paren(list(fs));
      case Unit =>
    }
  }

  /** As written, the list printers read back every list whose last field carries its default. */
  lemma AsWrittenListsReadBack(fields: CustomFields)
    requires KindsMatch(fields)
    ensures ListReadsBack(fields, TerminatedTokens, CommaRequired)
    ensures FieldsEndDefaulted(fields) ==> ListReadsBack(fields, SeparatedTokens, CommaRequired)
  {
    match fields {
      case Named(fs) =>
        AsWrittenListExactly(TerminatedTokens(fs), NamedField, fs);
        AsWrittenListExactly(SeparatedTokens(fs), NamedField, fs);
      case Unnamed(fs) =>
        AsWrittenListExactly(TerminatedTokens(fs), UnnamedField, fs);
        AsWrittenListExactly(SeparatedTokens(fs), UnnamedField, fs);
      case Unit =>
    }
  }

  /** As written, a body whose last field has no default and no trailing comma is refused. */
  lemma AsWrittenRefusesBareBody(fields: CustomFields, w: Option<WhereClause>)
    requires KindsMatch(fields) && !FieldsEndDefaulted(fields)
    ensures DataStruct(BodyTokens(fields, w, SeparatedTokens), CommaRequired).Failure?
  {
    if DataStruct(BodyTokens(fields, w, SeparatedTokens), CommaRequired).Success? {
      BodyListParses(fields, w, SeparatedTokens, CommaRequired);
      match fields {
        case Named(fs) => AsWrittenRejectsBareLastField(fs, NamedField);
        case Unnamed(fs) => AsWrittenRejectsBareLastField(fs, UnnamedField);
      }
    }
  }

  /** As written, a printed form whose last field has no default and no trailing comma is refused. */
  lemma AsWrittenRefusesBareForm(ts: seq<Token>, p: Parsed)
    requires WellFormed(p) && !FieldsEndDefaulted(p.fields)
    requires ts == PrintWith(p, SeparatedTokens) || (p.generics.params == [] && ts == PrintBareWith(p, SeparatedTokens))
    ensures ParseMacroInput(ts, CommaRequired).Failure?
  {
    var body := BodyTokens(p.fields, p.generics.whereClause, SeparatedTokens);
    AsWrittenRefusesBareBody(p.fields, p.generics.whereClause);
    if ParseParsed(ts, CommaRequired).Success? {
      if ts == PrintWith(p, SeparatedTokens) {
        HeaderReduces(p, body, CommaRequired);
      } else {
        BodyStart(p.fields, p.generics.whereClause, SeparatedTokens);
        BareHeaderReduces(p, body, CommaRequired);
      }
    }
  }

  /**
   * As written, the macro input parse yields a definition exactly when it is
   * well formed and the tokens print it with trailing commas, or print it in
   * either comma style when its last field carries a default.
   */
  lemma AsWrittenParsedExactly(ts: seq<Token>, p: Parsed)
    ensures ParseMacroInput(ts, CommaRequired) == Success(p) <==> WellFormed(p) && AsWrittenForm(ts, p)
  {
    if ParseMacroInput(ts, CommaRequired) == Success(p) {
      MacroInputPrinted(ts, CommaRequired);
      if !AsWrittenForm(ts, p) {
        AsWrittenRefusesBareForm(ts, p);
      }
    }
    if WellFormed(p) && AsWrittenForm(ts, p) {
      AsWrittenListsReadBack(p.fields);
      if ts == PrintWith(p, TerminatedTokens) {
        ParseRoundTripWith(p, TerminatedTokens, CommaRequired);
      } else if ts == PrintBareWith(p, TerminatedTokens) && p.generics.params == [] {
        ParseBareRoundTripWith(p, TerminatedTokens, CommaRequired);
      } else if ts == PrintWith(p, SeparatedTokens) {
        ParseRoundTripWith(p, SeparatedTokens, CommaRequired);
      } else {
        ParseBareRoundTripWith(p, SeparatedTokens, CommaRequired);
      }
    }
  }
}

=== FILE: custom.dfy ===
/** The macro's own syntax tree: standard fields extended with `= expr`. */
module Custom {
  import opened Wrappers
  import opened Syntax

  /** The `= value` suffix of a field. */
  datatype DefaultValue = DefaultValue(value: Expr)

  datatype CustomField = CustomField(field: Field, defaultValue: Option<DefaultValue>)

  datatype CustomFields =
    | Named(named: seq<CustomField>)
    | Unnamed(unnamed: seq<CustomField>)
    | Unit

  datatype Parsed = Parsed(
    attrs: seq<Attr>,
    vis: Vis,
    ident: Ident,
    generics: Generics,
    fields: CustomFields,
    semiToken: bool)

  /** Whether a field is written `name: Ty` or positionally as `Ty`. */
  datatype FieldKind = NamedField | UnnamedField

  predicate OfKind(f: CustomField, kind: FieldKind) {
    f.field.ident.Some? <==> kind == NamedField
  }

  predicate AllOfKind(fs: seq<CustomField>, kind: FieldKind) {
    forall i :: 0 <= i < |fs| ==> OfKind(fs[i], kind)
  }

  lemma AllOfKindCons(f: CustomField, fs: seq<CustomField>, kind: FieldKind)
    requires OfKind(f, kind) && AllOfKind(fs, kind)
    ensures AllOfKind([f] + fs, kind)
  {
  }

  /** Whether a field list is empty or its last field carries a default. */
  predicate LastDefaulted(fs: seq<CustomField>) {
    fs == [] || fs[|fs| - 1].defaultValue.Some?
  }

  /** Named fields for the braced shape, positional ones for the tuple shape. */
  predicate KindsMatch(fields: CustomFields) {
    match fields
    case Named(fs) => AllOfKind(fs, NamedField)
    case Unnamed(fs) => AllOfKind(fs, UnnamedField)
    case Unit => true
  }

  predicate FieldsEndDefaulted(fields: CustomFields) {
    match fields
    case Named(fs) => LastDefaulted(fs)
    case Unnamed(fs) => LastDefaulted(fs)
    case Unit => true
  }

  /**
   * The definitions the parser can produce: named fields carry a name and
   * positional ones do not, and exactly the tuple and unit shapes end in `;`.
   */
  predicate WellFormed(p: Parsed) {
    match p.fields
    case Named(fs) => !p.semiToken && AllOfKind(fs, NamedField)
    case Unnamed(fs) => p.semiToken && AllOfKind(fs, UnnamedField)
    case Unit => p.semiToken
  }
}

=== FILE: examples.dfy ===
/**
 * Worked inputs of the `default!` macro in the abstract token stream: the
 * crate's documented `Config` example and the cases of its test suite
 * (tests/basic.rs), the three struct shapes, and inputs it refuses.
 * Each is stated for every choice of names, types and expressions, so that
 * `struct Person { name: String, }` is one instance of `TypeDefault`.
 */
module Examples {
  import opened Wrappers
  import opened Syntax
  import opened Custom
  import opened Parser
  import opened Printer
  import opened Synth
  import opened Macro
  import opened ParserRoundTrip
  import opened ParserConverse

  /** A named field with no attributes and inherited visibility. */
  function PlainField(name: Ident, ty: Ty): Field {
    Field([], Inherited, Some(name), ty)
  }

  function PositionalField(ty: Ty): Field {
    Field([], Inherited, None, ty)
  }

  /** `ParseMacroInput` once each header part is known. */
  lemma ReadsDefinition(ts: seq<Token>, vis: Vis, name: Ident, rest: seq<Token>, params: seq<GenericParam>,
                        body: seq<Token>, rule: FieldEnd)
    requires ParseOuterAttrs(ts) == Step([], ts)
    requires ParseVisibility(ts) == Step(vis, rest)
    requires |rest| >= 2 && rest[0] == StructKw && rest[1] == IdentTok(name)
    requires ParseGenerics(rest[2..]) == Step(Generics(params, None), body)
    ensures DataStruct(body, rule).Success? && DataStruct(body, rule).value.rest == [] ==>
              var b := DataStruct(body, rule).value.value;
              ParseMacroInput(ts, rule) == Success(Parsed([], vis, name, Generics(params, b.whereClause), b.fields, b.semiToken))
    ensures DataStruct(body, rule).Failure? || DataStruct(body, rule).value.rest != [] ==>
              ParseMacroInput(ts, rule).Failure?
  {
  }

  /** `ParseMacroInput` on `struct name` followed by `body`. */
  lemma StructHeader(name: Ident, body: seq<Token>, rule: FieldEnd)
    requires body == [] || !body[0].GenericsTok?
    ensures DataStruct(body, rule).Success? && DataStruct(body, rule).value.rest == [] ==>
              var b := DataStruct(body, rule).value.value;
              ParseMacroInput([StructKw, IdentTok(name)] + body, rule)
              == Success(Parsed([], Inherited, name, Generics([], b.whereClause), b.fields, b.semiToken))
    ensures DataStruct(body, rule).Failure? || DataStruct(body, rule).value.rest != [] ==>
              ParseMacroInput([StructKw, IdentTok(name)] + body, rule).Failure?
  {
    var ts := [StructKw, IdentTok(name)] + body;
    assert ts[0] == StructKw && ts[1] == IdentTok(name);
    assert ParseOuterAttrs(ts) == Step([], ts);
    assert ts[2..] == body;
    ReadsDefinition(ts, Inherited, name, ts, [], body, rule);
  }

  /** `ParseMacroInput` on `pub struct name` followed by `body`. */
  lemma PubStructHeader(name: Ident, body: seq<Token>, rule: FieldEnd)
    requires body == [] || !body[0].GenericsTok?
    ensures DataStruct(body, rule).Success? && DataStruct(body, rule).value.rest == [] ==>
              var b := DataStruct(body, rule).value.value;
              ParseMacroInput([PubTok(None), StructKw, IdentTok(name)] + body, rule)
              == Success(Parsed([], Pub(None), name, Generics([], b.whereClause), b.fields, b.semiToken))
  {
    var ts := [PubTok(None), StructKw, IdentTok(name)] + body;
    var rest := [StructKw, IdentTok(name)] + body;
    assert ts[0] == PubTok(None);
    assert ts[1..] == rest;
    assert ParseOuterAttrs(ts) == Step([], ts);
    assert rest[2..] == body;
    ReadsDefinition(ts, Pub(None), name, rest, [], body, rule);
  }

  /** `ParseMacroInput` on `struct name<params>` followed by `body`. */
  lemma GenericStructHeader(name: Ident, params: seq<GenericParam>, body: seq<Token>, rule: FieldEnd)
    requires body == [] || !body[0].GenericsTok?
    ensures DataStruct(body, rule).Success? && DataStruct(body, rule).value.rest == [] ==>
              var b := DataStruct(body, rule).value.value;
              ParseMacroInput([StructKw, IdentTok(name), GenericsTok(params)] + body, rule)
              == Success(Parsed([], Inherited, name, Generics(params, b.whereClause), b.fields, b.semiToken))
    ensures DataStruct(body, rule).Failure? || DataStruct(body, rule).value.rest != [] ==>
              ParseMacroInput([StructKw, IdentTok(name), GenericsTok(params)] + body, rule).Failure?
  {
    var ts := [StructKw, IdentTok(name), GenericsTok(params)] + body;
    assert ts[0] == StructKw && ts[1] == IdentTok(name) && ts[2] == GenericsTok(params);
    assert ParseOuterAttrs(ts) == Step([], ts);
    assert ts[2..][1..] == body;
    ReadsDefinition(ts, Inherited, name, ts, params, body, rule);
  }

  lemma BracedReads(inner: seq<Token>, fs: seq<CustomField>, rule: FieldEnd)
    requires ParseTerminated(inner, NamedField, rule) == Success(fs)
    ensures DataStruct([Brace(inner)], rule) == Success(Step(Body(None, Named(fs), false), []))
  {
    assert [Brace(inner)][1..] == [];
  }

  lemma BracedRejects(inner: seq<Token>, rule: FieldEnd)
    requires ParseTerminated(inner, NamedField, rule).Failure?
    ensures DataStruct([Brace(inner)], rule).Failure?
  {
  }

  lemma ParenReads(inner: seq<Token>, fs: seq<CustomField>, rule: FieldEnd)
    requires ParseTerminated(inner, UnnamedField, rule) == Success(fs)
    ensures DataStruct([Paren(inner), Semi], rule) == Success(Step(Body(None, Unnamed(fs), true), []))
  {
    assert [Paren(inner), Semi][1..] == [Semi];
    assert [Semi][1..] == [];
  }

  lemma ExpandsTo(ts: seq<Token>, rule: FieldEnd, p: Parsed)
    requires ParseMacroInput(ts, rule) == Success(p)
    ensures Expand(ts, rule) == Success(Expansion(IntoItemStruct(p), ImplDefault(p)))
  {
  }

  lemma ExpandRejects(ts: seq<Token>, rule: FieldEnd)
    requires ParseMacroInput(ts, rule).Failure?
    ensures Expand(ts, rule).Failure?
  {
  }

  /** Two named fields, each with `= expr`, each followed by a comma. */
  lemma TwoGivenFields(a: Ident, ta: Ty, ea: Expr, b: Ident, tb: Ty, eb: Expr)
    ensures DataStruct([Brace([IdentTok(a), Colon, TyTok(ta), Eq, ExprTok(ea), Comma,
                               IdentTok(b), Colon, TyTok(tb), Eq, ExprTok(eb), Comma])], CommaRequired)
            == Success(Step(Body(None, Named([CustomField(PlainField(a, ta), Some(DefaultValue(ea))),
                                              CustomField(PlainField(b, tb), Some(DefaultValue(eb)))]), false), []))
  {
    var fa := CustomField(PlainField(a, ta), Some(DefaultValue(ea)));
    var fb := CustomField(PlainField(b, tb), Some(DefaultValue(eb)));
    var fs := [fa, fb];
    var inner := [IdentTok(a), Colon, TyTok(ta), Eq, ExprTok(ea), Comma,
                  IdentTok(b), Colon, TyTok(tb), Eq, ExprTok(eb), Comma];
    assert fs[1..] == [fb];
    assert TerminatedTokens([fb]) == inner[6..];
    assert TerminatedTokens(fs) == inner;
    TerminatedRoundTrip(fs, NamedField, CommaRequired);
    BracedReads(inner, fs, CommaRequired);
  }

  /** One named field without a default, followed by a comma. */
  lemma OneBareField(f: Ident, ty: Ty, rule: FieldEnd)
    ensures DataStruct([Brace([IdentTok(f), Colon, TyTok(ty), Comma])], rule)
            == Success(Step(Body(None, Named([CustomField(PlainField(f, ty), None)]), false), []))
  {
    var fs := [CustomField(PlainField(f, ty), None)];
    assert TerminatedTokens(fs) == [IdentTok(f), Colon, TyTok(ty), Comma];
    TerminatedRoundTrip(fs, NamedField, rule);
    BracedReads([IdentTok(f), Colon, TyTok(ty), Comma], fs, rule);
  }

  /** One named field without a default and without a comma: only the end of the list may close it. */
  lemma OneBareFieldAtEnd(f: Ident, ty: Ty)
    ensures DataStruct([Brace([IdentTok(f), Colon, TyTok(ty)])], CommaRequired).Failure?
    ensures DataStruct([Brace([IdentTok(f), Colon, TyTok(ty)])], CommaOrEnd)
            == Success(Step(Body(None, Named([CustomField(PlainField(f, ty), None)]), false), []))
  {
    var fs := [CustomField(PlainField(f, ty), None)];
    var list := [IdentTok(f), Colon, TyTok(ty)];
    assert SeparatedTokens(fs) == list;
    AsWrittenRejectsBareLastField(fs, NamedField);
    BracedRejects(list, CommaRequired);
    SeparatedRoundTrip(fs, NamedField);
    BracedReads(list, fs, CommaOrEnd);
  }

  /** Two positional fields, the first with `= expr`, each followed by a comma, then `;`. */
  lemma TwoPositionalFields(ta: Ty, ea: Expr, tb: Ty)
    ensures DataStruct([Paren([TyTok(ta), Eq, ExprTok(ea), Comma, TyTok(tb), Comma]), Semi], CommaRequired)
            == Success(Step(Body(None, Unnamed([CustomField(PositionalField(ta), Some(DefaultValue(ea))),
                                                CustomField(PositionalField(tb), None)]), true), []))
  {
    var fa := CustomField(PositionalField(ta), Some(DefaultValue(ea)));
    var fb := CustomField(PositionalField(tb), None);
    var fs := [fa, fb];
    var inner := [TyTok(ta), Eq, ExprTok(ea), Comma, TyTok(tb), Comma];
    assert fs[1..] == [fb];
    assert TerminatedTokens([fb]) == inner[4..];
    assert TerminatedTokens(fs) == inner;
    TerminatedRoundTrip(fs, UnnamedField, CommaRequired);
    ParenReads(inner, fs, CommaRequired);
  }

  /**
   * `pub struct Config { buffer_size: u16 = 10, initial_values: u8 = 1, }`:
   * every field keeps its given value, and the struct loses them.
   */
  lemma GivenDefaults(name: Ident, a: Ident, ta: Ty, ea: Expr, b: Ident, tb: Ty, eb: Expr)
    ensures Expand([PubTok(None), StructKw, IdentTok(name)] +
                   [Brace([IdentTok(a), Colon, TyTok(ta), Eq, ExprTok(ea), Comma,
                           IdentTok(b), Colon, TyTok(tb), Eq, ExprTok(eb), Comma])], CommaRequired)
            == Success(Expansion(
                 ItemStruct([], Pub(None), name, Generics([], None), FieldsNamed([PlainField(a, ta), PlainField(b, tb)]), false),
                 DefaultImpl(SplitGenerics([], [], None), name,
                             SelfBraced([NamedEntry(Some(a), Given(ea)), NamedEntry(Some(b), Given(eb))]))))
  {
    var fa := CustomField(PlainField(a, ta), Some(DefaultValue(ea)));
    var fb := CustomField(PlainField(b, tb), Some(DefaultValue(eb)));
    var body := [Brace([IdentTok(a), Colon, TyTok(ta), Eq, ExprTok(ea), Comma,
                        IdentTok(b), Colon, TyTok(tb), Eq, ExprTok(eb), Comma])];
    var p := Parsed([], Pub(None), name, Generics([], None), Named([fa, fb]), false);
    TwoGivenFields(a, ta, ea, b, tb, eb);
    PubStructHeader(name, body, CommaRequired);
    ExpandsTo([PubTok(None), StructKw, IdentTok(name)] + body, CommaRequired, p);
    TwoNamedSynth(p, fa, fb);
  }

  lemma TwoNamedSynth(p: Parsed, fa: CustomField, fb: CustomField)
    requires p.fields == Named([fa, fb])
    ensures IntoItemStruct(p).fields == FieldsNamed([fa.field, fb.field])
    ensures ImplDefault(p).body == SelfBraced([NamedEntry(fa.field.ident, ValueOf(fa)), NamedEntry(fb.field.ident, ValueOf(fb))])
  {
    assert [fa, fb][1..] == [fb];
  }

  /** `struct Person { name: String, }`: a field without a value gets its type's `Default`. */
  lemma TypeDefault(name: Ident, f: Ident, ty: Ty)
    ensures Expand([StructKw, IdentTok(name)] + [Brace([IdentTok(f), Colon, TyTok(ty), Comma])], CommaRequired)
            == Success(Expansion(
                 ItemStruct([], Inherited, name, Generics([], None), FieldsNamed([PlainField(f, ty)]), false),
                 DefaultImpl(SplitGenerics([], [], None), name, SelfBraced([NamedEntry(Some(f), DefaultCall(ty))]))))
  {
    var body := [Brace([IdentTok(f), Colon, TyTok(ty), Comma])];
    var p := Parsed([], Inherited, name, Generics([], None), Named([CustomField(PlainField(f, ty), None)]), false);
    OneBareField(f, ty, CommaRequired);
    StructHeader(name, body, CommaRequired);
    ExpandsTo([StructKw, IdentTok(name)] + body, CommaRequired, p);
    OneNamedSynth(p, CustomField(PlainField(f, ty), None));
  }

  lemma OneNamedSynth(p: Parsed, f: CustomField)
    requires p.fields == Named([f])
    ensures IntoItemStruct(p).fields == FieldsNamed([f.field])
    ensures ImplDefault(p).body == SelfBraced([NamedEntry(f.field.ident, ValueOf(f))])
  {
  }

  /**
   * `struct Config { version: V = v, authors: A, }`, the crate's own
   * documented use: the first field keeps its value, the second gets its
   * type's `Default`.
   */
  lemma MixedDefaults(name: Ident, v: Ident, tv: Ty, ev: Expr, a: Ident, ta: Ty)
    ensures Expand([StructKw, IdentTok(name)] +
                   [Brace([IdentTok(v), Colon, TyTok(tv), Eq, ExprTok(ev), Comma,
                           IdentTok(a), Colon, TyTok(ta), Comma])], CommaRequired)
            == Success(Expansion(
                 ItemStruct([], Inherited, name, Generics([], None), FieldsNamed([PlainField(v, tv), PlainField(a, ta)]), false),
                 DefaultImpl(SplitGenerics([], [], None), name,
                             SelfBraced([NamedEntry(Some(v), Given(ev)), NamedEntry(Some(a), DefaultCall(ta))]))))
  {
    var fv := CustomField(PlainField(v, tv), Some(DefaultValue(ev)));
    var fa := CustomField(PlainField(a, ta), None);
    var fs := [fv, fa];
    var inner := [IdentTok(v), Colon, TyTok(tv), Eq, ExprTok(ev), Comma,
                  IdentTok(a), Colon, TyTok(ta), Comma];
    var body := [Brace(inner)];
    var p := Parsed([], Inherited, name, Generics([], None), Named(fs), false);
    assert fs[1..] == [fa];
    assert TerminatedTokens([fa]) == inner[6..];
    assert TerminatedTokens(fs) == inner;
    TerminatedRoundTrip(fs, NamedField, CommaRequired);
    BracedReads(inner, fs, CommaRequired);
    StructHeader(name, body, CommaRequired);
    ExpandsTo([StructKw, IdentTok(name)] + body, CommaRequired, p);
    TwoNamedSynth(p, fv, fa);
  }

  /**
   * `#[derive(..)] struct Chili { #[doc] hunger: f32 = 9.0, }`: the struct's
   * and the field's attributes pass through to the plain struct unchanged.
   */
  lemma FieldAttributes(sa: Attr, name: Ident, fa: Attr, f: Ident, ty: Ty, e: Expr)
    ensures Expand([AttrTok(sa), StructKw, IdentTok(name)] +
                   [Brace([AttrTok(fa), IdentTok(f), Colon, TyTok(ty), Eq, ExprTok(e), Comma])], CommaRequired)
            == Success(Expansion(
                 ItemStruct([sa], Inherited, name, Generics([], None), FieldsNamed([Field([fa], Inherited, Some(f), ty)]), false),
                 DefaultImpl(SplitGenerics([], [], None), name, SelfBraced([NamedEntry(Some(f), Given(e))]))))
  {
    var cf := CustomField(Field([fa], Inherited, Some(f), ty), Some(DefaultValue(e)));
    var p := Parsed([sa], Inherited, name, Generics([], None), Named([cf]), false);
    var ts := [AttrTok(sa), StructKw, IdentTok(name)] +
              [Brace([AttrTok(fa), IdentTok(f), Colon, TyTok(ty), Eq, ExprTok(e), Comma])];
    AttributedPrinted(sa, name, fa, f, ty, e);
    TerminatedRoundTrip([cf], NamedField, CommaRequired);
    ParseBareRoundTripWith(p, TerminatedTokens, CommaRequired);
    ExpandsTo(ts, CommaRequired, p);
    OneNamedSynth(p, cf);
  }

  /** The tokens of the attributed example are its printed form without a generics token. */
  lemma AttributedPrinted(sa: Attr, name: Ident, fa: Attr, f: Ident, ty: Ty, e: Expr)
    ensures [AttrTok(sa), StructKw, IdentTok(name)] +
            [Brace([AttrTok(fa), IdentTok(f), Colon, TyTok(ty), Eq, ExprTok(e), Comma])]
            == PrintBareWith(Parsed([sa], Inherited, name, Generics([], None),
                                    Named([CustomField(Field([fa], Inherited, Some(f), ty), Some(DefaultValue(e)))]), false),
                             TerminatedTokens)
  {
    var cf := CustomField(Field([fa], Inherited, Some(f), ty), Some(DefaultValue(e)));
    assert AttrTokens([fa]) == [AttrTok(fa)];
    assert TerminatedTokens([cf]) == [AttrTok(fa), IdentTok(f), Colon, TyTok(ty), Eq, ExprTok(e), Comma];
    assert AttrTokens([sa]) == [AttrTok(sa)];
  }

  /** `struct MyVec<T> { inner: Vec<T>, }`: the impl declares `T` and is for `MyVec<T>`. */
  lemma GenericStruct(name: Ident, t: Ident, f: Ident, ty: Ty)
    ensures Expand([StructKw, IdentTok(name), GenericsTok([GenericParam(t, [], None)])] +
                   [Brace([IdentTok(f), Colon, TyTok(ty), Comma])], CommaRequired)
            == Success(Expansion(
                 ItemStruct([], Inherited, name, Generics([GenericParam(t, [], None)], None),
                            FieldsNamed([PlainField(f, ty)]), false),
                 DefaultImpl(SplitGenerics([ImplParam(t, [])], [t], None), name,
                             SelfBraced([NamedEntry(Some(f), DefaultCall(ty))]))))
  {
    var params := [GenericParam(t, [], None)];
    var body := [Brace([IdentTok(f), Colon, TyTok(ty), Comma])];
    var p := Parsed([], Inherited, name, Generics(params, None), Named([CustomField(PlainField(f, ty), None)]), false);
    OneBareField(f, ty, CommaRequired);
    GenericStructHeader(name, params, body, CommaRequired);
    ExpandsTo([StructKw, IdentTok(name), GenericsTok(params)] + body, CommaRequired, p);
    OneNamedSynth(p, CustomField(PlainField(f, ty), None));
    OneParamSplit(t);
  }

  lemma OneParamSplit(t: Ident)
    ensures SplitForImpl(Generics([GenericParam(t, [], None)], None)) == SplitGenerics([ImplParam(t, [])], [t], None)
  {
  }

  /**
   * `struct Person { name: String }`: refused as written; under the
   * corrected rule it expands exactly as the same struct with a trailing comma.
   */
  lemma BareLastField(name: Ident, f: Ident, ty: Ty)
    ensures Expand([StructKw, IdentTok(name)] + [Brace([IdentTok(f), Colon, TyTok(ty)])], CommaRequired).Failure?
    ensures Expand([StructKw, IdentTok(name)] + [Brace([IdentTok(f), Colon, TyTok(ty)])], CommaOrEnd)
            == Expand([StructKw, IdentTok(name)] + [Brace([IdentTok(f), Colon, TyTok(ty), Comma])], CommaRequired)
  {
    var bare := [Brace([IdentTok(f), Colon, TyTok(ty)])];
    var withComma := [Brace([IdentTok(f), Colon, TyTok(ty), Comma])];
    var p := Parsed([], Inherited, name, Generics([], None), Named([CustomField(PlainField(f, ty), None)]), false);
    OneBareFieldAtEnd(f, ty);
    OneBareField(f, ty, CommaRequired);
    StructHeader(name, bare, CommaRequired);
    StructHeader(name, bare, CommaOrEnd);
    StructHeader(name, withComma, CommaRequired);
    ExpandRejects([StructKw, IdentTok(name)] + bare, CommaRequired);
    ExpandsTo([StructKw, IdentTok(name)] + bare, CommaOrEnd, p);
    ExpandsTo([StructKw, IdentTok(name)] + withComma, CommaRequired, p);
  }

  /** `struct W(u8 = 1, u16,);`: a tuple struct, built positionally. */
  lemma TupleStruct(name: Ident, ta: Ty, ea: Expr, tb: Ty)
    ensures Expand([StructKw, IdentTok(name)] + [Paren([TyTok(ta), Eq, ExprTok(ea), Comma, TyTok(tb), Comma]), Semi],
                   CommaRequired)
            == Success(Expansion(
                 ItemStruct([], Inherited, name, Generics([], None),
                            FieldsUnnamed([PositionalField(ta), PositionalField(tb)]), true),
                 DefaultImpl(SplitGenerics([], [], None), name, SelfParen([Given(ea), DefaultCall(tb)]))))
  {
    var fa := CustomField(PositionalField(ta), Some(DefaultValue(ea)));
    var fb := CustomField(PositionalField(tb), None);
    var body := [Paren([TyTok(ta), Eq, ExprTok(ea), Comma, TyTok(tb), Comma]), Semi];
    var p := Parsed([], Inherited, name, Generics([], None), Unnamed([fa, fb]), true);
    TwoPositionalFields(ta, ea, tb);
    StructHeader(name, body, CommaRequired);
    ExpandsTo([StructKw, IdentTok(name)] + body, CommaRequired, p);
    TwoUnnamedSynth(p, fa, fb);
  }

  lemma TwoUnnamedSynth(p: Parsed, fa: CustomField, fb: CustomField)
    requires p.fields == Unnamed([fa, fb])
    ensures IntoItemStruct(p).fields == FieldsUnnamed([fa.field, fb.field])
    ensures ImplDefault(p).body == SelfParen([ValueOf(fa), ValueOf(fb)])
  {
    assert [fa, fb][1..] == [fb];
  }

  /** `struct U;`: a unit struct, built as `Self`. */
  lemma UnitStruct(name: Ident)
    ensures Expand([StructKw, IdentTok(name)] + [Semi], CommaRequired)
            == Success(Expansion(
                 ItemStruct([], Inherited, name, Generics([], None), FieldsUnit, true),
                 DefaultImpl(SplitGenerics([], [], None), name, SelfUnit)))
  {
    assert [Semi][1..] == [];
    StructHeader(name, [Semi], CommaRequired);
    ExpandsTo([StructKw, IdentTok(name)] + [Semi], CommaRequired, Parsed([], Inherited, name, Generics([], None), Unit, true));
  }

  /** `struct W<T> where T: Copy (T);`: a where-clause may not come before a tuple's parentheses. */
  lemma WhereBeforeTupleRejected(name: Ident, t: Ident, w: WhereClause, ty: Ty, rule: FieldEnd)
    ensures Expand([StructKw, IdentTok(name), GenericsTok([GenericParam(t, [], None)])] +
                   [WhereTok(w), Paren([TyTok(ty)]), Semi], rule).Failure?
  {
    var params := [GenericParam(t, [], None)];
    GenericStructHeader(name, params, [WhereTok(w), Paren([TyTok(ty)]), Semi], rule);
    ExpandRejects([StructKw, IdentTok(name), GenericsTok(params)] + [WhereTok(w), Paren([TyTok(ty)]), Semi], rule);
  }

  /** `struct W(u8,)` with no `;`: a tuple struct must end with a semicolon. */
  lemma TupleWithoutSemiRejected(name: Ident, ty: Ty, rule: FieldEnd)
    ensures Expand([StructKw, IdentTok(name)] + [Paren([TyTok(ty), Comma])], rule).Failure?
  {
    assert [Paren([TyTok(ty), Comma])][1..] == [];
    StructHeader(name, [Paren([TyTok(ty), Comma])], rule);
    ExpandRejects([StructKw, IdentTok(name)] + [Paren([TyTok(ty), Comma])], rule);
  }

  /** `struct U; ;`: tokens left after the definition are refused. */
  lemma TrailingTokensRejected(name: Ident, rule: FieldEnd)
    ensures Expand([StructKw, IdentTok(name)] + [Semi, Semi], rule).Failure?
  {
    assert [Semi, Semi][1..] == [Semi];
    StructHeader(name, [Semi, Semi], rule);
    ExpandRejects([StructKw, IdentTok(name)] + [Semi, Semi], rule);
  }

  /** A default value is one expression, followed by a comma or the end. */
  lemma TwoExpressionsInField(f: Ident, ty: Ty, e1: Expr, e2: Expr, rule: FieldEnd)
    ensures DataStruct([Brace([IdentTok(f), Colon, TyTok(ty), Eq, ExprTok(e1), ExprTok(e2), Comma])], rule).Failure?
  {
    var inner := [IdentTok(f), Colon, TyTok(ty), Eq, ExprTok(e1), ExprTok(e2), Comma];
    assert ParseOuterAttrs(inner) == Step([], inner);
    assert ParseField(inner, NamedField) == Success(Step(PlainField(f, ty), inner[3..]));
    assert ParseDefaultValue(inner[3..]) == Success(Step(DefaultValue(e1), inner[5..]));
    assert ParseCustomField(inner, NamedField, rule).value.rest == inner[5..];
    BracedRejects(inner, rule);
  }

  /** `struct S { a: u8 = 1 10, }`: refused. */
  lemma TwoExpressionsRejected(name: Ident, f: Ident, ty: Ty, e1: Expr, e2: Expr, rule: FieldEnd)
    ensures Expand([StructKw, IdentTok(name)] +
                   [Brace([IdentTok(f), Colon, TyTok(ty), Eq, ExprTok(e1), ExprTok(e2), Comma])], rule).Failure?
  {
    var body := [Brace([IdentTok(f), Colon, TyTok(ty), Eq, ExprTok(e1), ExprTok(e2), Comma])];
    TwoExpressionsInField(f, ty, e1, e2, rule);
    StructHeader(name, body, rule);
    ExpandRejects([StructKw, IdentTok(name)] + body, rule);
  }
}

=== FILE: fieldend.dfy ===
/**
 * What the field-end rule as written implies for any token stream: a field
 * without a default is never closed by the end of its list.
 */
module FieldEndRule {
  import opened Wrappers
  import opened Syntax
  import opened Custom
  import opened Parser

  /** `rest` is what remains of `ts` after some prefix was consumed. */
  predicate Suffix(rest: seq<Token>, ts: seq<Token>) {
    |rest| <= |ts| && rest == ts[|ts| - |rest|..]
  }

  lemma SuffixOfTail(ts: seq<Token>, k: nat)
    requires k <= |ts|
    ensures Suffix(ts[k..], ts)
  {
  }

  lemma SuffixTransitive(a: seq<Token>, b: seq<Token>, c: seq<Token>)
    requires Suffix(a, b) && Suffix(b, c)
    ensures Suffix(a, c)
  {
  }

  /** Attributes and visibility are read off the front of the stream. */
  lemma PrefixSuffix(ts: seq<Token>)
    ensures Suffix(ParseVisibility(ParseOuterAttrs(ts).rest).rest, ts)
  {
    var attrs := ParseOuterAttrs(ts);
    var vis := ParseVisibility(attrs.rest);
    SuffixOfTail(ts, |attrs.value|);
    if vis.value.Pub? {
      SuffixOfTail(attrs.rest, 1);
      SuffixTransitive(vis.rest, attrs.rest, ts);
    }
  }

  /** After attributes and visibility, a field takes `name : Ty` or `Ty`. */
  lemma FieldRest(ts: seq<Token>, kind: FieldKind)
    requires ParseField(ts, kind).Success?
    ensures var after := ParseVisibility(ParseOuterAttrs(ts).rest).rest;
      var k := if kind == NamedField then 3 else 1;
      k <= |after| && ParseField(ts, kind).value.rest == after[k..]
  {
  }

  /** A standard field is read off the front of the stream. */
  lemma FieldSuffix(ts: seq<Token>, kind: FieldKind)
    requires ParseField(ts, kind).Success?
    ensures Suffix(ParseField(ts, kind).value.rest, ts)
  {
    var after := ParseVisibility(ParseOuterAttrs(ts).rest).rest;
    var k := if kind == NamedField then 3 else 1;
    PrefixSuffix(ts);
    FieldRest(ts, kind);
    SuffixOfTail(after, k);
    SuffixTransitive(after[k..], after, ts);
  }

  /** An extended field is read off the front of the stream. */
  lemma CustomFieldSuffix(ts: seq<Token>, kind: FieldKind, rule: FieldEnd)
    requires ParseCustomField(ts, kind, rule).Success?
    ensures Suffix(ParseCustomField(ts, kind, rule).value.rest, ts)
  {
    FieldSuffix(ts, kind);
    var f := ParseField(ts, kind).value;
    if !(StartsWithComma(f.rest) || (rule == CommaOrEnd && f.rest == [])) {
      SuffixOfTail(f.rest, 2);
      SuffixTransitive(f.rest[2..], f.rest, ts);
    }
  }

  /** The shape of a successful `ParseTerminated` over a non-empty list. */
  lemma TerminatedUnfold(ts: seq<Token>, kind: FieldKind, rule: FieldEnd)
    requires ts != [] && ParseTerminated(ts, kind, rule).Success?
    ensures ParseCustomField(ts, kind, rule).Success?
    ensures var c := ParseCustomField(ts, kind, rule).value;
      if c.rest == [] then
        ParseTerminated(ts, kind, rule).value == [c.value]
      else
        c.rest[0] == Comma && ParseTerminated(c.rest[1..], kind, rule).Success? &&
        ParseTerminated(ts, kind, rule).value == [c.value] + ParseTerminated(c.rest[1..], kind, rule).value
  {
  }

  /** The trailing-comma fact carried from the rest of a list to the whole list. */
  lemma CommaStep(ts: seq<Token>, c: Step<CustomField>, fs: seq<CustomField>)
    requires Suffix(c.rest, ts) && c.rest != [] && c.rest[0] == Comma
    requires fs == [] ==> c.rest[1..] == []
    requires fs != [] && fs[|fs| - 1].defaultValue.None? ==> EndsWithComma(c.rest[1..])
    ensures var all := [c.value] + fs;
      all[|all| - 1].defaultValue.None? ==> EndsWithComma(ts)
  {
    var all := [c.value] + fs;
    if fs != [] {
      assert all[|all| - 1] == fs[|fs| - 1];
    }
  }

  /**
   * As written, a field list whose last field has no default was closed by
   * a trailing comma: the end of the list never ends a default-less field.
   */
  lemma {:induction false} BareLastFieldHadComma(ts: seq<Token>, kind: FieldKind, fs: seq<CustomField>)
    requires ParseTerminated(ts, kind, CommaRequired) == Success(fs)
    requires fs != [] && fs[|fs| - 1].defaultValue.None?
    ensures EndsWithComma(ts)
    decreases |ts|
  {
    TerminatedUnfold(ts, kind, CommaRequired);
    var c := ParseCustomField(ts, kind, CommaRequired).value;
    if c.rest != [] {
      var tail := c.rest[1..];
      var more := ParseTerminated(tail, kind, CommaRequired).value;
      if tail != [] {
        TerminatedUnfold(tail, kind, CommaRequired);
      }
      if more != [] && more[|more| - 1].defaultValue.None? {
        BareLastFieldHadComma(tail, kind, more);
      }
      CustomFieldSuffix(ts, kind, CommaRequired);
      CommaStep(ts, c, more);
    }
  }
}

=== FILE: macro.dfy ===
/**
 * The `default!` entry point: parse, synthesize the `Default` impl, strip
 * the struct, and emit the struct followed by the impl. Also the reference
 * notion of a constructor that fits a struct, and the inverse of synthesis.
 */
module Macro {
  import opened Wrappers
  import opened Syntax
  import opened Custom
  import opened Parser
  import opened Synth

  /** A value that may stand for a field: a given expression, or `Default` of that field's type. */
  predicate ValueFits(v: FieldValue, f: Field) {
    v.DefaultCall? ==> v.ty == f.ty
  }

  /**
   * The constructor builds exactly the struct's fields: the same shape, one
   * value per field in declaration order, each named entry naming its field.
   */
  predicate Initializes(c: Constructor, fields: Fields) {
    match fields
    case FieldsNamed(fs) =>
      c.SelfBraced? && |c.entries| == |fs| &&
      forall i :: 0 <= i < |fs| ==> c.entries[i].ident == fs[i].ident && ValueFits(c.entries[i].value, fs[i])
    case FieldsUnnamed(fs) =>
      c.SelfParen? && |c.values| == |fs| &&
      forall i :: 0 <= i < |fs| ==> ValueFits(c.values[i], fs[i])
    case FieldsUnit =>
      c.SelfUnit?
  }

  /** The impl is for the emitted struct, under its own generics, and initializes it. */
  predicate ImplFits(impl: DefaultImpl, item: ItemStruct) {
    && impl.selfTy == item.ident
    && impl.split == SplitForImpl(item.generics)
    && Initializes(impl.body, item.fields)
  }

  /** The macro's output: the plain struct followed by its `Default` impl. */
  datatype Expansion = Expansion(item: ItemStruct, impl: DefaultImpl)

  /** The generated constructor fits the stripped struct, for every definition. */
  lemma ConstructorFitsStruct(p: Parsed)
    ensures ImplFits(ImplDefault(p), IntoItemStruct(p))
  {
    var item := IntoItemStruct(p);
    var c := ImplDefault(p).body;
    match p.fields {
      case Named(fs) =>
        forall i | 0 <= i < |fs|
          ensures c.entries[i].ident == item.fields.named[i].ident
          ensures ValueFits(c.entries[i].value, item.fields.named[i])
        {
        }
      case Unnamed(fs) =>
      case Unit =>
    }
  }

  /** A field's default annotation, read back from its constructor value. */
  function RecoverField(f: Field, v: FieldValue): (r: Option<CustomField>)
    ensures r.Some? <==> ValueFits(v, f)
    ensures r.Some? ==> r.value.field == f && ValueOf(r.value) == v
  {
    match v
    case Given(e) => Some(CustomField(f, Some(DefaultValue(e))))
    case DefaultCall(t) => if t == f.ty then Some(CustomField(f, None)) else None
  }

  function RecoverNamed(fs: seq<Field>, es: seq<NamedEntry>): (r: Option<seq<CustomField>>)
    ensures r.Some? ==> |r.value| == |fs| == |es|
    ensures r.Some? ==> StripDefaults(r.value) == fs && NamedDefaults(r.value) == es
  {
    if fs == [] || es == [] then
      if fs == [] && es == [] then Some([]) else None
    else if es[0].ident != fs[0].ident then
      None
    else
      match (RecoverField(fs[0], es[0].value), RecoverNamed(fs[1..], es[1..]))
      case (Some(f), Some(rest)) =>
        assert ([f] + rest)[1..] == rest;
        Some([f] + rest)
      case _ => None
  }

  function RecoverUnnamed(fs: seq<Field>, vs: seq<FieldValue>): (r: Option<seq<CustomField>>)
    ensures r.Some? ==> |r.value| == |fs| == |vs|
    ensures r.Some? ==> StripDefaults(r.value) == fs && UnnamedDefaults(r.value) == vs
  {
    if fs == [] || vs == [] then
      if fs == [] && vs == [] then Some([]) else None
    else
      match (RecoverField(fs[0], vs[0]), RecoverUnnamed(fs[1..], vs[1..]))
      case (Some(f), Some(rest)) =>
        assert ([f] + rest)[1..] == rest;
        Some([f] + rest)
      case _ => None
  }

  /**
   * The inverse of synthesis: the parsed definition that the struct and
   * impl were generated from, if they fit each other.
   */
  function Recover(item: ItemStruct, impl: DefaultImpl): (r: Option<Parsed>)
    ensures r.Some? ==> IntoItemStruct(r.value) == item && ImplDefault(r.value) == impl
  {
    if impl.selfTy != item.ident || impl.split != SplitForImpl(item.generics) then
      None
    else
      var fields: Option<CustomFields> := match (item.fields, impl.body)
        case (FieldsNamed(fs), SelfBraced(es)) =>
          (match RecoverNamed(fs, es) case Some(cfs) => Some(Named(cfs)) case None => None)
        case (FieldsUnnamed(fs), SelfParen(vs)) =>
          (match RecoverUnnamed(fs, vs) case Some(cfs) => Some(Unnamed(cfs)) case None => None)
        case (FieldsUnit, SelfUnit) => Some(Unit)
        case _ => None;
      match fields
      case Some(cf) => Some(Parsed(item.attrs, item.vis, item.ident, item.generics, cf, item.semiToken))
      case None => None
  }

  lemma RecoverNamedStep(f: CustomField, fields: seq<Field>, entries: seq<NamedEntry>, rest: seq<CustomField>)
    requires RecoverNamed(fields, entries) == Some(rest)
    ensures RecoverNamed([f.field] + fields, [NamedEntry(f.field.ident, ValueOf(f))] + entries) == Some([f] + rest)
  {
    assert ([f.field] + fields)[1..] == fields;
    assert ([NamedEntry(f.field.ident, ValueOf(f))] + entries)[1..] == entries;
  }

  lemma RecoverUnnamedStep(f: CustomField, fields: seq<Field>, values: seq<FieldValue>, rest: seq<CustomField>)
    requires RecoverUnnamed(fields, values) == Some(rest)
    ensures RecoverUnnamed([f.field] + fields, [ValueOf(f)] + values) == Some([f] + rest)
  {
    assert ([f.field] + fields)[1..] == fields;
    assert ([ValueOf(f)] + values)[1..] == values;
  }

  lemma {:induction false} RecoverNamedInverse(fs: seq<CustomField>)
    ensures RecoverNamed(StripDefaults(fs), NamedDefaults(fs)) == Some(fs)
  {
    if fs != [] {
      RecoverNamedInverse(fs[1..]);
      RecoverNamedStep(fs[0], StripDefaults(fs[1..]), NamedDefaults(fs[1..]), fs[1..]);
      assert [fs[0]] + fs[1..] == fs;
    }
  }

  lemma {:induction false} RecoverUnnamedInverse(fs: seq<CustomField>)
    ensures RecoverUnnamed(StripDefaults(fs), UnnamedDefaults(fs)) == Some(fs)
  {
    if fs != [] {
      RecoverUnnamedInverse(fs[1..]);
      RecoverUnnamedStep(fs[0], StripDefaults(fs[1..]), UnnamedDefaults(fs[1..]), fs[1..]);
      assert [fs[0]] + fs[1..] == fs;
    }
  }

  /**
   * Synthesis loses nothing: every field's default, or its absence, can be
   * read back from the stripped struct and the generated impl.
   */
  lemma ExpansionLossless(p: Parsed)
    ensures Recover(IntoItemStruct(p), ImplDefault(p)) == Some(p)
  {
    match p.fields {
      case Named(fs) => RecoverNamedInverse(fs);
      case Unnamed(fs) => RecoverUnnamedInverse(fs);
      case Unit =>
    }
  }

  /**
   * The `default` procedural macro: the expansion exists exactly when the
   * input parses; its impl fits its struct, and the pair determines the
   * parsed definition.
   */
  function Expand(ts: seq<Token>, rule: FieldEnd): (r: Result<Expansion, SyntaxError>)
    ensures r.Success? <==> ParseMacroInput(ts, rule).Success?
    ensures r.Success? ==> ImplFits(r.value.impl, r.value.item)
    ensures r.Success? ==> Recover(r.value.item, r.value.impl) == Some(ParseMacroInput(ts, rule).value)
  {
    var parsed :- ParseMacroInput(ts, rule);
    ConstructorFitsStruct(parsed);
    ExpansionLossless(parsed);
    Success(Expansion(IntoItemStruct(parsed), ImplDefault(parsed)))
  }
}

=== FILE: parser.dfy ===
/**
 * The extended struct parser: a recursive-descent reading of the abstract
 * token stream into a `Parsed` definition, or a syntax error.
 */
module Parser {
  import opened Wrappers
  import opened Syntax
  import opened Custom

  /** Any violation of the grammar; spans and messages are not modelled. */
  datatype SyntaxError = SyntaxError

  /** A parsed value together with the tokens left after it. */
  datatype Step<T> = Step(value: T, rest: seq<Token>)

  type ParseResult<T> = Result<Step<T>, SyntaxError>

  /**
   * What may follow a field written without `= expr`. `CommaRequired` is the
   * rule as written; `CommaOrEnd` also admits the end of the field list.
   */
  datatype FieldEnd = CommaRequired | CommaOrEnd

  predicate StartsWithComma(ts: seq<Token>) {
    |ts| > 0 && ts[0] == Comma
  }

  predicate EndsWithComma(ts: seq<Token>) {
    |ts| > 0 && ts[|ts| - 1] == Comma
  }

  /** Whether the tokens after a standard field end it, so that no `= expr` is needed. */
  predicate FieldEnds(rest: seq<Token>, rule: FieldEnd) {
    StartsWithComma(rest) || (rule == CommaOrEnd && rest == [])
  }

  /** The body of a struct: the where-clause, fields and `;` that `data_struct` returns. */
  datatype Body = Body(whereClause: Option<WhereClause>, fields: CustomFields, semiToken: bool)

  /** Outer attributes: as many `#[...]` as lead the stream. */
  function ParseOuterAttrs(ts: seq<Token>): (r: Step<seq<Attr>>)
    ensures |r.value| <= |ts| && r.rest == ts[|r.value|..]
    ensures forall i :: 0 <= i < |r.value| ==> ts[i] == AttrTok(r.value[i])
    ensures r.rest == [] || !r.rest[0].AttrTok?
    decreases |ts|
  {
    if |ts| > 0 && ts[0].AttrTok? then
      var tail := ParseOuterAttrs(ts[1..]);
      Step([ts[0].attr] + tail.value, tail.rest)
    else
      Step([], ts)
  }

  /** A visibility is optional; without a `pub` it is `Inherited`. */
  function ParseVisibility(ts: seq<Token>): (r: Step<Vis>)
    ensures r.value.Inherited? <==> r.rest == ts
    ensures r.value.Inherited? ==> ts == [] || !ts[0].PubTok?
    ensures r.value.Pub? ==> |ts| > 0 && ts[0] == PubTok(r.value.restriction) && r.rest == ts[1..]
  {
    if |ts| > 0 && ts[0].PubTok? then Step(Pub(ts[0].restriction), ts[1..]) else Step(Inherited, ts)
  }

  /** Generic parameters `<...>` are optional; the where-clause is never read here. */
  function ParseGenerics(ts: seq<Token>): (r: Step<Generics>)
    ensures r.value.whereClause.None?
    ensures r.rest == ts ==> r.value.params == []
    ensures r.rest == ts ==> ts == [] || !ts[0].GenericsTok?
    ensures r.rest != ts ==> |ts| > 0 && ts[0] == GenericsTok(r.value.params) && r.rest == ts[1..]
  {
    if |ts| > 0 && ts[0].GenericsTok? then Step(Generics(ts[0].params, None), ts[1..])
    else Step(Generics([], None), ts)
  }

  /** An optional where-clause. */
  function ParseOptWhere(ts: seq<Token>): (r: Step<Option<WhereClause>>)
    ensures r.value.None? <==> r.rest == ts
    ensures r.value.None? ==> ts == [] || !ts[0].WhereTok?
    ensures r.value.Some? ==> |ts| > 0 && ts[0] == WhereTok(r.value.value) && r.rest == ts[1..]
  {
    if |ts| > 0 && ts[0].WhereTok? then Step(Some(ts[0].clause), ts[1..]) else Step(None, ts)
  }

  /**
   * A standard field: attributes, visibility, then `name : Ty` for a named
   * field or `Ty` for a positional one.
   */
  function ParseField(ts: seq<Token>, kind: FieldKind): (r: ParseResult<Field>)
    ensures r.Success? ==> |r.value.rest| < |ts|
    ensures r.Success? ==> (r.value.value.ident.Some? <==> kind == NamedField)
  {
    var attrs := ParseOuterAttrs(ts);
    var vis := ParseVisibility(attrs.rest);
    var ts1 := vis.rest;
    match kind
    case NamedField =>
      if |ts1| >= 3 && ts1[0].IdentTok? && ts1[1] == Colon && ts1[2].TyTok? then
        Success(Step(Field(attrs.value, vis.value, Some(ts1[0].ident), ts1[2].ty), ts1[3..]))
      else
        Failure(SyntaxError)
    case UnnamedField =>
      if |ts1| >= 1 && ts1[0].TyTok? then
        Success(Step(Field(attrs.value, vis.value, None, ts1[0].ty), ts1[1..]))
      else
        Failure(SyntaxError)
  }

  /** `= expr`: both parts are mandatory. */
  function ParseDefaultValue(ts: seq<Token>): (r: ParseResult<DefaultValue>)
    ensures r.Success? <==> |ts| >= 2 && ts[0] == Eq && ts[1].ExprTok?
    ensures r.Success? ==> r.value.value == DefaultValue(ts[1].expr) && r.value.rest == ts[2..]
  {
    if |ts| >= 2 && ts[0] == Eq && ts[1].ExprTok? then
      Success(Step(DefaultValue(ts[1].expr), ts[2..]))
    else
      Failure(SyntaxError)
  }

  /**
   * A field of the extended grammar: a standard field, then, unless the next
   * token ends the field, a mandatory `= expr`.
   */
  function ParseCustomField(ts: seq<Token>, kind: FieldKind, rule: FieldEnd): (r: ParseResult<CustomField>)
    ensures r.Success? ==> |r.value.rest| < |ts|
    ensures r.Success? ==> OfKind(r.value.value, kind)
    ensures r.Success? && r.value.value.defaultValue.None? ==> FieldEnds(r.value.rest, rule)
    ensures r.Success? <==>
              ParseField(ts, kind).Success? &&
              (FieldEnds(ParseField(ts, kind).value.rest, rule) ||
               ParseDefaultValue(ParseField(ts, kind).value.rest).Success?)
    ensures r.Success? ==> r.value.value.field == ParseField(ts, kind).value.value
    ensures r.Success? ==>
              (r.value.value.defaultValue.Some? <==> !FieldEnds(ParseField(ts, kind).value.rest, rule))
    ensures r.Success? && r.value.value.defaultValue.None? ==> r.value.rest == ParseField(ts, kind).value.rest
    ensures r.Success? && r.value.value.defaultValue.Some? ==>
              ParseDefaultValue(ParseField(ts, kind).value.rest)
              == Success(Step(r.value.value.defaultValue.value, r.value.rest))
  {
    var f :- ParseField(ts, kind);
    if FieldEnds(f.rest, rule) then
      Success(Step(CustomField(f.value, None), f.rest))
    else
      var d :- ParseDefaultValue(f.rest);
      Success(Step(CustomField(f.value, Some(d.value)), d.rest))
  }

  /**
   * The content of a delimited group as a comma-separated list of fields
   * with an optional trailing comma; the whole content must be consumed.
   */
  function ParseTerminated(ts: seq<Token>, kind: FieldKind, rule: FieldEnd): (r: Result<seq<CustomField>, SyntaxError>)
    ensures r.Success? ==> AllOfKind(r.value, kind)
    ensures ts == [] ==> r == Success([])
    decreases |ts|
  {
    if ts == [] then
      Success([])
    else
      var f :- ParseCustomField(ts, kind, rule);
      if f.rest == [] then
        Success([f.value])
      else if f.rest[0] != Comma then
        Failure(SyntaxError)
      else
        var fs :- ParseTerminated(f.rest[1..], kind, rule);
        AllOfKindCons(f.value, fs, kind);
        Success([f.value] + fs)
  }

  /**
   * The struct body after the generics, chosen by one token of lookahead
   * after an optional leading where-clause: `(` (only when no where-clause
   * was read), `{` or `;`.
   */
  function DataStruct(ts: seq<Token>, rule: FieldEnd): (r: ParseResult<Body>)
    ensures ts == [] || !(ts[0].WhereTok? || ts[0].Paren? || ts[0].Brace? || ts[0] == Semi) ==> r.Failure?
    ensures |ts| >= 2 && ts[0].WhereTok? && (ts[1].Paren? || ts[1].WhereTok?) ==> r.Failure?
    ensures r.Success? ==> match r.value.value.fields
              case Named(fs) => !r.value.value.semiToken && AllOfKind(fs, NamedField)
              case Unnamed(fs) => r.value.value.semiToken && AllOfKind(fs, UnnamedField) && ts[0].Paren?
              case Unit => r.value.value.semiToken
    ensures r.Success? && !r.value.value.fields.Unnamed? ==>
              (r.value.value.whereClause.Some? <==> ts[0].WhereTok?)
    ensures r.Success? ==> |ParseOptWhere(ts).rest| > 0
    ensures r.Success? ==> (r.value.value.fields.Named? <==> ParseOptWhere(ts).rest[0].Brace?)
    ensures r.Success? ==> (r.value.value.fields.Unit? <==> ParseOptWhere(ts).rest[0] == Semi)
    ensures r.Success? && !r.value.value.fields.Unnamed? ==>
              r.value.value.whereClause == ParseOptWhere(ts).value && r.value.rest == ParseOptWhere(ts).rest[1..]
    ensures r.Success? && r.value.value.fields.Named? ==>
              ParseTerminated(ParseOptWhere(ts).rest[0].inner, NamedField, rule) == Success(r.value.value.fields.named)
    ensures r.Success? && r.value.value.fields.Unnamed? ==>
              ParseOptWhere(ts).value.None? &&
              ParseTerminated(ts[0].inner, UnnamedField, rule) == Success(r.value.value.fields.unnamed) &&
              r.value.value.whereClause == ParseOptWhere(ts[1..]).value &&
              |ParseOptWhere(ts[1..]).rest| > 0 && ParseOptWhere(ts[1..]).rest[0] == Semi &&
              r.value.rest == ParseOptWhere(ts[1..]).rest[1..]
  {
    var lead := ParseOptWhere(ts);
    var ts1 := lead.rest;
    if lead.value.None? && |ts1| > 0 && ts1[0].Paren? then
      var fs :- ParseTerminated(ts1[0].inner, UnnamedField, rule);
      var trail := ParseOptWhere(ts1[1..]);
      var ts3 := trail.rest;
      if |ts3| > 0 && ts3[0] == Semi then
        Success(Step(Body(trail.value, Unnamed(fs), true), ts3[1..]))
      else
        Failure(SyntaxError)
    else if |ts1| > 0 && ts1[0].Brace? then
      var fs :- ParseTerminated(ts1[0].inner, NamedField, rule);
      Success(Step(Body(lead.value, Named(fs), false), ts1[1..]))
    else if |ts1| > 0 && ts1[0] == Semi then
      Success(Step(Body(lead.value, Unit, true), ts1[1..]))
    else
      Failure(SyntaxError)
  }

  /**
   * A whole definition: attributes, visibility, `struct`, name, generics and
   * body; the where-clause found by the body parse replaces the generics'.
   */
  function ParseParsed(ts: seq<Token>, rule: FieldEnd): (r: ParseResult<Parsed>)
    ensures r.Success? ==> WellFormed(r.value.value)
  {
    var attrs := ParseOuterAttrs(ts);
    var vis := ParseVisibility(attrs.rest);
    var ts1 := vis.rest;
    if |ts1| >= 2 && ts1[0] == StructKw && ts1[1].IdentTok? then
      var gen := ParseGenerics(ts1[2..]);
      var body :- DataStruct(gen.rest, rule);
      Success(Step(
        Parsed(attrs.value, vis.value, ts1[1].ident,
               Generics(gen.value.params, body.value.whereClause),
               body.value.fields, body.value.semiToken),
        body.rest))
    else
      Failure(SyntaxError)
  }

  /** The macro input parse: a definition that uses up every token. */
  function ParseMacroInput(ts: seq<Token>, rule: FieldEnd): (r: Result<Parsed, SyntaxError>)
    ensures r.Success? ==> WellFormed(r.value)
    ensures r.Success? <==> ParseParsed(ts, rule).Success? && ParseParsed(ts, rule).value.rest == []
  {
    var p :- ParseParsed(ts, rule);
    if p.rest == [] then Success(p.value) else Failure(SyntaxError)
  }
}

=== FILE: printer.dfy ===
/**
 * A reference printer from the macro's syntax tree back to tokens, the
 * inverse that the parser's round-trip lemmas are stated against. Field
 * lists are printed with a comma after every field (`TerminatedTokens`) or
 * only between fields (`SeparatedTokens`); the generics token is written
 * (`PrintWith`), or left out when there are no parameters (`PrintBareWith`);
 * a tuple struct's where-clause is printed after its parentheses, the only
 * place the parser reads it for that shape.
 */
module Printer {
  import opened Wrappers
  import opened Syntax
  import opened Custom

  function AttrTokens(attrs: seq<Attr>): (ts: seq<Token>)
    ensures |ts| == |attrs|
    ensures forall i :: 0 <= i < |attrs| ==> ts[i] == AttrTok(attrs[i])
  {
    if attrs == [] then [] else [AttrTok(attrs[0])] + AttrTokens(attrs[1..])
  }

  function VisTokens(vis: Vis): seq<Token> {
    match vis
    case Inherited => []
    case Pub(restriction) => [PubTok(restriction)]
  }

  function WhereTokens(w: Option<WhereClause>): seq<Token> {
    match w
    case None => []
    case Some(c) => [WhereTok(c)]
  }

  /** The tokens of a field after its attributes and visibility. */
  function NameAndType(f: Field): seq<Token> {
    match f.ident
    case Some(id) => [IdentTok(id), Colon, TyTok(f.ty)]
    case None => [TyTok(f.ty)]
  }

  /** The standard part of a field: attributes, visibility, `name :` if named, type. */
  function FieldTokens(f: Field): seq<Token> {
    AttrTokens(f.attrs) + (VisTokens(f.vis) + NameAndType(f))
  }

  function DefaultTokens(d: Option<DefaultValue>): seq<Token> {
    match d
    case None => []
    case Some(dv) => [Eq, ExprTok(dv.value)]
  }

  function CustomFieldTokens(f: CustomField): seq<Token> {
    FieldTokens(f.field) + DefaultTokens(f.defaultValue)
  }

  /** Every field followed by a comma. */
  function TerminatedTokens(fs: seq<CustomField>): seq<Token> {
    if fs == [] then [] else CustomFieldTokens(fs[0]) + ([Comma] + TerminatedTokens(fs[1..]))
  }

  /** Fields separated by commas, with no comma after the last one. */
  function SeparatedTokens(fs: seq<CustomField>): seq<Token> {
    if fs == [] then []
    else if |fs| == 1 then CustomFieldTokens(fs[0])
    else CustomFieldTokens(fs[0]) + ([Comma] + SeparatedTokens(fs[1..]))
  }

  function BodyTokens(fields: CustomFields, w: Option<WhereClause>, list: seq<CustomField> -> seq<Token>): seq<Token> {
    match fields
    case Named(fs) => WhereTokens(w) + [Brace(list(fs))]
    case Unnamed(fs) => [Paren(list(fs))] + (WhereTokens(w) + [Semi])
    case Unit => WhereTokens(w) + [Semi]
  }

  /** The whole definition, with the field lists printed by `list`. */
  function PrintWith(p: Parsed, list: seq<CustomField> -> seq<Token>): seq<Token> {
    AttrTokens(p.attrs) + (VisTokens(p.vis) +
      ([StructKw, IdentTok(p.ident), GenericsTok(p.generics.params)] +
        BodyTokens(p.fields, p.generics.whereClause, list)))
  }

  function Print(p: Parsed): seq<Token> {
    PrintWith(p, TerminatedTokens)
  }

  function PrintSeparated(p: Parsed): seq<Token> {
    PrintWith(p, SeparatedTokens)
  }

  /** The whole definition with no generics token, as written when there are no parameters. */
  function PrintBareWith(p: Parsed, list: seq<CustomField> -> seq<Token>): seq<Token> {
    AttrTokens(p.attrs) + (VisTokens(p.vis) +
      ([StructKw, IdentTok(p.ident)] + BodyTokens(p.fields, p.generics.whereClause, list)))
  }

  /**
   * The ways `p` can be written: field lists with or without a comma after
   * the last field, and the generics token left out when it lists nothing.
   */
  predicate PrintedForm(ts: seq<Token>, p: Parsed) {
    || ts == PrintWith(p, TerminatedTokens)
    || ts == PrintWith(p, SeparatedTokens)
    || (p.generics.params == [] &&
        (ts == PrintBareWith(p, TerminatedTokens) || ts == PrintBareWith(p, SeparatedTokens)))
  }
  /**
   * The printed forms that the rule as written reads: every field followed
   * by a comma, or any printed form whose last field carries its default.
   */
  predicate AsWrittenForm(ts: seq<Token>, p: Parsed) {
    || ts == PrintWith(p, TerminatedTokens)
    || (p.generics.params == [] && ts == PrintBareWith(p, TerminatedTokens))
    || (FieldsEndDefaulted(p.fields) && PrintedForm(ts, p))
  }

}

=== FILE: roundtrip.dfy ===
/**
 * Parser properties: the parser inverts the reference printer, the
 * where-clause lands in the generics record from either position, and the
 * two quirks of the field grammar.
 */
module ParserRoundTrip {
  import opened Wrappers
  import opened Syntax
  import opened Custom
  import opened Parser
  import opened Printer

  lemma {:induction false} AttrsRoundTrip(attrs: seq<Attr>, tail: seq<Token>)
    requires tail == [] || !tail[0].AttrTok?
    ensures ParseOuterAttrs(AttrTokens(attrs) + tail) == Step(attrs, tail)
  {
    if attrs != [] {
      var ts := AttrTokens(attrs) + tail;
      assert ts[0] == AttrTok(attrs[0]);
      assert ts[1..] == AttrTokens(attrs[1..]) + tail;
      AttrsRoundTrip(attrs[1..], tail);
      assert [attrs[0]] + attrs[1..] == attrs;
    }
  }

  lemma VisRoundTrip(v: Vis, tail: seq<Token>)
    requires tail == [] || !tail[0].PubTok?
    ensures ParseVisibility(VisTokens(v) + tail) == Step(v, tail)
  {
    if v.Pub? {
      assert (VisTokens(v) + tail)[1..] == tail;
    }
  }

  /** `ParseField` once its attributes and visibility are known. */
  lemma ParseFieldAfterPrefix(ts: seq<Token>, f: Field, kind: FieldKind, rest1: seq<Token>, tail: seq<Token>)
    requires f.ident.Some? <==> kind == NamedField
    requires ParseOuterAttrs(ts) == Step(f.attrs, rest1)
    requires ParseVisibility(rest1) == Step(f.vis, NameAndType(f) + tail)
    ensures ParseField(ts, kind) == Success(Step(f, tail))
  {
    var rest2 := NameAndType(f) + tail;
    match kind
    case NamedField =>
      assert rest2[3..] == tail;
    case UnnamedField =>
      assert rest2[1..] == tail;
  }

  /** A standard field reads back as itself, leaving whatever followed it. */
  lemma StdFieldRoundTrip(f: Field, kind: FieldKind, tail: seq<Token>)
    requires f.ident.Some? <==> kind == NamedField
    ensures ParseField(FieldTokens(f) + tail, kind) == Success(Step(f, tail))
  {
    var rest2 := NameAndType(f) + tail;
    var rest1 := VisTokens(f.vis) + rest2;
    var ts := FieldTokens(f) + tail;
    assert ts == AttrTokens(f.attrs) + rest1;
    assert rest1[0].PubTok? || rest1[0].IdentTok? || rest1[0].TyTok?;
    AttrsRoundTrip(f.attrs, rest1);
    VisRoundTrip(f.vis, rest2);
    ParseFieldAfterPrefix(ts, f, kind, rest1, tail);
  }

  /**
   * One field reads back as itself when followed by a comma, or by the end
   * of the list if it has a default or the end-of-list rule admits it.
   */
  lemma FieldRoundTrip(f: CustomField, kind: FieldKind, rule: FieldEnd, tail: seq<Token>)
    requires OfKind(f, kind)
    requires StartsWithComma(tail) || (tail == [] && (f.defaultValue.Some? || rule == CommaOrEnd))
    ensures ParseCustomField(CustomFieldTokens(f) + tail, kind, rule) == Success(Step(f, tail))
  {
    var ts := CustomFieldTokens(f) + tail;
    var after := DefaultTokens(f.defaultValue) + tail;
    assert ts == FieldTokens(f.field) + after;
    StdFieldRoundTrip(f.field, kind, after);
    DefaultAfterField(ts, f, kind, rule, tail);
  }

  lemma DefaultAfterField(ts: seq<Token>, f: CustomField, kind: FieldKind, rule: FieldEnd, tail: seq<Token>)
    requires ParseField(ts, kind) == Success(Step(f.field, DefaultTokens(f.defaultValue) + tail))
    requires StartsWithComma(tail) || (tail == [] && (f.defaultValue.Some? || rule == CommaOrEnd))
    ensures ParseCustomField(ts, kind, rule) == Success(Step(f, tail))
  {
    match f.defaultValue
    case Some(d) =>
      var after := [Eq, ExprTok(d.value)] + tail;
      assert DefaultTokens(f.defaultValue) + tail == after;
      WithDefault(ts, f.field, d, kind, rule, tail);
    case None =>
      assert DefaultTokens(f.defaultValue) + tail == tail;
  }

  lemma WithDefault(ts: seq<Token>, fl: Field, d: DefaultValue, kind: FieldKind, rule: FieldEnd, tail: seq<Token>)
    requires ParseField(ts, kind) == Success(Step(fl, [Eq, ExprTok(d.value)] + tail))
    ensures ParseCustomField(ts, kind, rule) == Success(Step(CustomField(fl, Some(d)), tail))
  {
    var after := [Eq, ExprTok(d.value)] + tail;
    assert after[2..] == tail;
    assert ParseDefaultValue(after) == Success(Step(d, tail));
  }

  /** `ParseTerminated` over a field followed by a comma and more fields. */
  lemma TerminatedCons(ts: seq<Token>, more: seq<Token>, fs: seq<CustomField>, kind: FieldKind, rule: FieldEnd)
    requires fs != []
    requires ParseCustomField(ts, kind, rule) == Success(Step(fs[0], [Comma] + more))
    requires ParseTerminated(more, kind, rule) == Success(fs[1..])
    ensures ParseTerminated(ts, kind, rule) == Success(fs)
  {
    assert ([Comma] + more)[1..] == more;
    HeadTail(fs);
  }

  lemma HeadTail<T>(s: seq<T>)
    requires s != []
    ensures [s[0]] + s[1..] == s
  {
  }

  /** `ParseTerminated` over a last field that uses up the list. */
  lemma TerminatedLast(ts: seq<Token>, fs: seq<CustomField>, kind: FieldKind, rule: FieldEnd)
    requires |fs| == 1
    requires ParseCustomField(ts, kind, rule) == Success(Step(fs[0], []))
    ensures ParseTerminated(ts, kind, rule) == Success(fs)
  {
    assert [fs[0]] == fs;
  }

  lemma AllOfKindTail(fs: seq<CustomField>, kind: FieldKind)
    requires fs != [] && AllOfKind(fs, kind)
    ensures OfKind(fs[0], kind) && AllOfKind(fs[1..], kind)
  {
    assert OfKind(fs[0], kind);
    forall i | 0 <= i < |fs[1..]| ensures OfKind(fs[1..][i], kind) {
      assert fs[1..][i] == fs[i + 1];
    }
  }

  /** Printed with a comma after every field, a field list parses back under either rule. */
  lemma {:induction false} TerminatedRoundTrip(fs: seq<CustomField>, kind: FieldKind, rule: FieldEnd)
    requires AllOfKind(fs, kind)
    ensures ParseTerminated(TerminatedTokens(fs), kind, rule) == Success(fs)
  {
    if fs != [] {
      var more := TerminatedTokens(fs[1..]);
      var ts := TerminatedTokens(fs);
      assert ts == CustomFieldTokens(fs[0]) + ([Comma] + more);
      AllOfKindTail(fs, kind);
      FieldRoundTrip(fs[0], kind, rule, [Comma] + more);
      TerminatedRoundTrip(fs[1..], kind, rule);
      TerminatedCons(ts, more, fs, kind, rule);
    }
  }

  /** With the end-of-list rule, the trailing comma is optional. */
  lemma {:induction false} SeparatedRoundTrip(fs: seq<CustomField>, kind: FieldKind)
    requires AllOfKind(fs, kind)
    ensures ParseTerminated(SeparatedTokens(fs), kind, CommaOrEnd) == Success(fs)
  {
    var ts := SeparatedTokens(fs);
    if |fs| == 1 {
      assert ts == CustomFieldTokens(fs[0]) + [];
      AllOfKindTail(fs, kind);
      FieldRoundTrip(fs[0], kind, CommaOrEnd, []);
      TerminatedLast(ts, fs, kind, CommaOrEnd);
    } else if |fs| > 1 {
      var more := SeparatedTokens(fs[1..]);
      assert ts == CustomFieldTokens(fs[0]) + ([Comma] + more);
      AllOfKindTail(fs, kind);
      FieldRoundTrip(fs[0], kind, CommaOrEnd, [Comma] + more);
      SeparatedRoundTrip(fs[1..], kind);
      TerminatedCons(ts, more, fs, kind, CommaOrEnd);
    }
  }

  /**
   * As written, a list whose last field has no default and no trailing
   * comma is rejected, whatever came before it.
   */
  lemma {:induction false} AsWrittenRejectsBareLastField(fs: seq<CustomField>, kind: FieldKind)
    requires AllOfKind(fs, kind)
    requires fs != [] && fs[|fs| - 1].defaultValue.None?
    ensures ParseTerminated(SeparatedTokens(fs), kind, CommaRequired).Failure?
  {
    AllOfKindTail(fs, kind);
    if |fs| == 1 {
      BareFieldAtEnd(fs[0], kind);
      SeparatedSingle(fs);
    } else {
      var more := SeparatedTokens(fs[1..]);
      SeparatedCons(fs);
      LastOfTail(fs);
      FieldRoundTrip(fs[0], kind, CommaRequired, [Comma] + more);
      AsWrittenRejectsBareLastField(fs[1..], kind);
      TerminatedConsFails(SeparatedTokens(fs), fs[0], more, kind);
    }
  }

  /**
   * As written, a list without a trailing comma is still read when its last
   * field carries a default: `= expr` ends that field.
   */
  lemma {:induction false} AsWrittenAcceptsDefaultedLastField(fs: seq<CustomField>, kind: FieldKind)
    requires AllOfKind(fs, kind)
    requires fs != [] && fs[|fs| - 1].defaultValue.Some?
    ensures ParseTerminated(SeparatedTokens(fs), kind, CommaRequired) == Success(fs)
  {
    AllOfKindTail(fs, kind);
    var ts := SeparatedTokens(fs);
    if |fs| == 1 {
      assert ts == CustomFieldTokens(fs[0]) + [];
      FieldRoundTrip(fs[0], kind, CommaRequired, []);
      TerminatedLast(ts, fs, kind, CommaRequired);
    } else {
      var more := SeparatedTokens(fs[1..]);
      SeparatedCons(fs);
      LastOfTail(fs);
      FieldRoundTrip(fs[0], kind, CommaRequired, [Comma] + more);
      AsWrittenAcceptsDefaultedLastField(fs[1..], kind);
      TerminatedCons(ts, more, fs, kind, CommaRequired);
    }
  }

  lemma LastOfTail<T>(s: seq<T>)
    requires |s| > 1
    ensures s[1..][|s[1..]| - 1] == s[|s| - 1]
  {
  }

  lemma SeparatedSingle(fs: seq<CustomField>)
    requires |fs| == 1
    ensures SeparatedTokens(fs) == SeparatedTokens([fs[0]])
  {
    assert fs == [fs[0]];
  }

  lemma SeparatedCons(fs: seq<CustomField>)
    requires |fs| > 1
    ensures SeparatedTokens(fs) == CustomFieldTokens(fs[0]) + ([Comma] + SeparatedTokens(fs[1..]))
  {
  }

  lemma BareFieldAtEnd(f: CustomField, kind: FieldKind)
    requires OfKind(f, kind) && f.defaultValue.None?
    ensures ParseTerminated(SeparatedTokens([f]), kind, CommaRequired).Failure?
  {
    var ts := SeparatedTokens([f]);
    assert ts == FieldTokens(f.field) + [];
    StdFieldRoundTrip(f.field, kind, []);
    BareFieldFails(ts, f.field, kind);
  }

  lemma BareFieldFails(ts: seq<Token>, fl: Field, kind: FieldKind)
    requires ParseField(ts, kind) == Success(Step(fl, []))
    ensures ParseTerminated(ts, kind, CommaRequired).Failure?
  {
    assert ParseDefaultValue([]).Failure?;
    assert ParseCustomField(ts, kind, CommaRequired).Failure?;
  }

  lemma TerminatedConsFails(ts: seq<Token>, f: CustomField, more: seq<Token>, kind: FieldKind)
    requires ParseCustomField(ts, kind, CommaRequired) == Success(Step(f, [Comma] + more))
    requires ParseTerminated(more, kind, CommaRequired).Failure?
    ensures ParseTerminated(ts, kind, CommaRequired).Failure?
  {
    assert ([Comma] + more)[1..] == more;
  }

  /** The field list printer `list` reads back under `rule` for the fields at hand. */
  predicate ListReadsBack(fields: CustomFields, list: seq<CustomField> -> seq<Token>, rule: FieldEnd) {
    match fields
    case Named(fs) => ParseTerminated(list(fs), NamedField, rule) == Success(fs)
    case Unnamed(fs) => ParseTerminated(list(fs), UnnamedField, rule) == Success(fs)
    case Unit => true
  }

  lemma DataStructRoundTrip(fields: CustomFields, w: Option<WhereClause>, list: seq<CustomField> -> seq<Token>, rule: FieldEnd)
    requires ListReadsBack(fields, list, rule)
    ensures DataStruct(BodyTokens(fields, w, list), rule) == Success(Step(Body(w, fields, !fields.Named?), []))
  {
    match fields {
      case Named(fs) => DataStructBraced(BodyTokens(fields, w, list), list(fs), fs, w, rule);
      case Unnamed(fs) => DataStructParen(BodyTokens(fields, w, list), list(fs), fs, w, rule);
      case Unit => DataStructUnit(BodyTokens(fields, w, list), w, rule);
    }
  }

  lemma DataStructBraced(ts: seq<Token>, inner: seq<Token>, fs: seq<CustomField>, w: Option<WhereClause>, rule: FieldEnd)
    requires ts == WhereTokens(w) + [Brace(inner)]
    requires ParseTerminated(inner, NamedField, rule) == Success(fs)
    ensures DataStruct(ts, rule) == Success(Step(Body(w, Named(fs), false), []))
  {
    assert ParseOptWhere(ts) == Step(w, [Brace(inner)]);
    assert [Brace(inner)][1..] == [];
  }

  lemma DataStructParen(ts: seq<Token>, inner: seq<Token>, fs: seq<CustomField>, w: Option<WhereClause>, rule: FieldEnd)
    requires ts == [Paren(inner)] + (WhereTokens(w) + [Semi])
    requires ParseTerminated(inner, UnnamedField, rule) == Success(fs)
    ensures DataStruct(ts, rule) == Success(Step(Body(w, Unnamed(fs), true), []))
  {
    var after := WhereTokens(w) + [Semi];
    assert ts[1..] == after;
    if w.Some? {
      assert after[1..] == [Semi];
    }
    assert ParseOptWhere(after) == Step(w, [Semi]);
    DataStructTuple(ts, inner, fs, w, rule);
  }

  lemma DataStructUnit(ts: seq<Token>, w: Option<WhereClause>, rule: FieldEnd)
    requires ts == WhereTokens(w) + [Semi]
    ensures DataStruct(ts, rule) == Success(Step(Body(w, Unit, true), []))
  {
    assert ParseOptWhere(ts) == Step(w, [Semi]);
    assert [Semi][1..] == [];
  }

  lemma DataStructTuple(ts: seq<Token>, inner: seq<Token>, fs: seq<CustomField>, w: Option<WhereClause>, rule: FieldEnd)
    requires |ts| >= 2 && ts[0] == Paren(inner)
    requires ParseTerminated(inner, UnnamedField, rule) == Success(fs)
    requires ParseOptWhere(ts[1..]) == Step(w, [Semi])
    ensures DataStruct(ts, rule) == Success(Step(Body(w, Unnamed(fs), true), []))
  {
    assert [Semi][1..] == [];
  }

  /** `ParseParsed` once the header parts are known. */
  lemma ParseParsedAfterHeader(ts: seq<Token>, p: Parsed, rest1: seq<Token>, rest2: seq<Token>, rule: FieldEnd)
    requires ParseOuterAttrs(ts) == Step(p.attrs, rest1)
    requires ParseVisibility(rest1) == Step(p.vis, rest2)
    requires |rest2| >= 3 && rest2[0] == StructKw && rest2[1] == IdentTok(p.ident)
    requires rest2[2] == GenericsTok(p.generics.params)
    requires DataStruct(rest2[3..], rule) == Success(Step(Body(p.generics.whereClause, p.fields, p.semiToken), []))
    ensures ParseMacroInput(ts, rule) == Success(p)
  {
    assert rest2[2..][1..] == rest2[3..];
  }

  lemma DropPrefix<T>(a: seq<T>, b: seq<T>)
    ensures (a + b)[|a|..] == b
  {
  }

  /** The header printed before any body that `DataStruct` reads back. */
  lemma HeaderThenBody(p: Parsed, body: seq<Token>, rule: FieldEnd)
    requires DataStruct(body, rule) == Success(Step(Body(p.generics.whereClause, p.fields, p.semiToken), []))
    ensures ParseMacroInput(AttrTokens(p.attrs) + (VisTokens(p.vis) +
              ([StructKw, IdentTok(p.ident), GenericsTok(p.generics.params)] + body)), rule) == Success(p)
  {
    var rest2 := [StructKw, IdentTok(p.ident), GenericsTok(p.generics.params)] + body;
    var rest1 := VisTokens(p.vis) + rest2;
    var ts := AttrTokens(p.attrs) + rest1;
    assert rest1[0].PubTok? || rest1[0] == StructKw;
    AttrsRoundTrip(p.attrs, rest1);
    VisRoundTrip(p.vis, rest2);
    DropPrefix([StructKw, IdentTok(p.ident), GenericsTok(p.generics.params)], body);
    ParseParsedAfterHeader(ts, p, rest1, rest2, rule);
  }

  /**
   * A well-formed definition printed with the field-list printer `list`
   * reads back as itself, wherever its where-clause was printed.
   */
  lemma ParseRoundTripWith(p: Parsed, list: seq<CustomField> -> seq<Token>, rule: FieldEnd)
    requires WellFormed(p) && ListReadsBack(p.fields, list, rule)
    ensures ParseMacroInput(PrintWith(p, list), rule) == Success(p)
  {
    DataStructRoundTrip(p.fields, p.generics.whereClause, list, rule);
    HeaderThenBody(p, BodyTokens(p.fields, p.generics.whereClause, list), rule);
  }

  /** Parse inverts the printer under the rule as written and the corrected one. */
  lemma ParseRoundTrip(p: Parsed, rule: FieldEnd)
    requires WellFormed(p)
    ensures ParseMacroInput(Print(p), rule) == Success(p)
  {
    match p.fields {
      case Named(fs) => TerminatedRoundTrip(fs, NamedField, rule);
      case Unnamed(fs) => TerminatedRoundTrip(fs, UnnamedField, rule);
      case Unit =>
    }
    ParseRoundTripWith(p, TerminatedTokens, rule);
  }

  /** Under the corrected rule no field list needs a trailing comma. */
  lemma ParseSeparatedRoundTrip(p: Parsed)
    requires WellFormed(p)
    ensures ParseMacroInput(PrintSeparated(p), CommaOrEnd) == Success(p)
  {
    match p.fields {
      case Named(fs) => SeparatedRoundTrip(fs, NamedField);
      case Unnamed(fs) => SeparatedRoundTrip(fs, UnnamedField);
      case Unit =>
    }
    ParseRoundTripWith(p, SeparatedTokens, CommaOrEnd);
  }
}

=== FILE: syntax.dfy ===
/**
 * The part of the host language's syntax tree that the macro reads and
 * writes. The leaf grammars (attributes, visibility restrictions, types,
 * expressions, generic parameter lists and where-clauses) belong to the
 * parsing library and are opaque atoms here: each is one token of the
 * abstract token stream and one value of the tree.
 */
module Syntax {
  import opened Wrappers

  datatype Ident = Ident(name: string)

  /** An outer attribute `#[...]` or doc comment. */
  datatype Attr = Attr(id: nat)

  /** The path inside `pub(...)`. */
  datatype Path = Path(id: nat)

  datatype Ty = Ty(id: nat)

  datatype Expr = Expr(id: nat)

  /** One trait or lifetime bound of a generic parameter. */
  datatype Bound = Bound(id: nat)

  /** A whole `where ...` clause. */
  datatype WhereClause = WhereClause(predicates: seq<nat>)

  /** `Inherited` is the absence of a visibility keyword. */
  datatype Vis = Inherited | Pub(restriction: Option<Path>)

  /** A generic parameter `N: B1 + B2 = D`; `fallback` is its `= D` default. */
  datatype GenericParam = GenericParam(name: Ident, bounds: seq<Bound>, fallback: Option<Ty>)

  datatype Generics = Generics(params: seq<GenericParam>, whereClause: Option<WhereClause>)

  /** A standard struct field; `ident` is present exactly for named fields. */
  datatype Field = Field(attrs: seq<Attr>, vis: Vis, ident: Option<Ident>, ty: Ty)

  datatype Fields =
    | FieldsNamed(named: seq<Field>)
    | FieldsUnnamed(unnamed: seq<Field>)
    | FieldsUnit

  /** A standard struct item; `semiToken` records the trailing `;`. */
  datatype ItemStruct = ItemStruct(
    attrs: seq<Attr>,
    vis: Vis,
    ident: Ident,
    generics: Generics,
    fields: Fields,
    semiToken: bool)

  /**
   * The macro's input as seen by the parser. `Paren` and `Brace` are
   * delimited groups holding their own token streams; every leaf grammar of
   * the host language is one atom token.
   */
  datatype Token =
    | AttrTok(attr: Attr)
    | PubTok(restriction: Option<Path>)
    | StructKw
    | IdentTok(ident: Ident)
    | GenericsTok(params: seq<GenericParam>)
    | WhereTok(clause: WhereClause)
    | TyTok(ty: Ty)
    | ExprTok(expr: Expr)
    | Colon
    | Comma
    | Eq
    | Semi
    | Paren(inner: seq<Token>)
    | Brace(inner: seq<Token>)
    | Other(id: nat)
}

=== FILE: synth.dfy ===
/**
 * The synthesizer: from a parsed definition, the plain struct with every
 * `= expr` removed and the `Default` implementation that builds it.
 */
module Synth {
  import opened Wrappers
  import opened Syntax
  import opened Custom

  /** A field's value in the generated constructor. */
  datatype FieldValue =
    | Given(expr: Expr)      // the field's own `= expr`, verbatim
    | DefaultCall(ty: Ty)    // `<ty as core::default::Default>::default()`

  /** One `ident: value` entry of a braced constructor (`ident` is printed only when present). */
  datatype NamedEntry = NamedEntry(ident: Option<Ident>, value: FieldValue)

  /** The constructor expression in the body of `fn default() -> Self`. */
  datatype Constructor =
    | SelfBraced(entries: seq<NamedEntry>)   // `Self { a: v, ... }`
    | SelfParen(values: seq<FieldValue>)     // `Self (v, ...)`
    | SelfUnit                               // `Self`

  /** An impl-header parameter: a generic parameter without its default. */
  datatype ImplParam = ImplParam(name: Ident, bounds: seq<Bound>)

  /** The three parts `split_for_impl` yields. */
  datatype SplitGenerics = SplitGenerics(
    implGenerics: seq<ImplParam>,
    tyGenerics: seq<Ident>,
    whereClause: Option<WhereClause>)

  /** `impl <implGenerics> Default for selfTy <tyGenerics> <where> { fn default() -> Self { body } }` */
  datatype DefaultImpl = DefaultImpl(split: SplitGenerics, selfTy: Ident, body: Constructor)

  /** The value a field gets: its default expression if it has one, else a call to its type's `Default`. */
  function ValueOf(f: CustomField): FieldValue {
    match f.defaultValue
    case Some(d) => Given(d.value)
    case None => DefaultCall(f.field.ty)
  }

  /** `CustomFieldsNamed::to_formatted_defaults`. */
  function NamedDefaults(fs: seq<CustomField>): (r: seq<NamedEntry>)
    ensures |r| == |fs|
    ensures forall i :: 0 <= i < |fs| ==> r[i].ident == fs[i].field.ident
    ensures forall i :: 0 <= i < |fs| && fs[i].defaultValue.Some? ==>
              r[i].value == Given(fs[i].defaultValue.value.value)
    ensures forall i :: 0 <= i < |fs| && fs[i].defaultValue.None? ==>
              r[i].value == DefaultCall(fs[i].field.ty)
  {
    if fs == [] then [] else [NamedEntry(fs[0].field.ident, ValueOf(fs[0]))] + NamedDefaults(fs[1..])
  }

  /** `CustomFieldsUnnamed::to_formatted_defaults`. */
  function UnnamedDefaults(fs: seq<CustomField>): (r: seq<FieldValue>)
    ensures |r| == |fs|
    ensures forall i :: 0 <= i < |fs| && fs[i].defaultValue.Some? ==>
              r[i] == Given(fs[i].defaultValue.value.value)
    ensures forall i :: 0 <= i < |fs| && fs[i].defaultValue.None? ==>
              r[i] == DefaultCall(fs[i].field.ty)
  {
    if fs == [] then [] else [ValueOf(fs[0])] + UnnamedDefaults(fs[1..])
  }

  /** The `.field` projection: each extended field without its default. */
  function StripDefaults(fs: seq<CustomField>): (r: seq<Field>)
    ensures |r| == |fs|
    ensures forall i :: 0 <= i < |fs| ==> r[i] == fs[i].field
  {
    if fs == [] then [] else [fs[0].field] + StripDefaults(fs[1..])
  }

  function ImplParams(ps: seq<GenericParam>): (r: seq<ImplParam>)
    ensures |r| == |ps|
    ensures forall i :: 0 <= i < |ps| ==> r[i] == ImplParam(ps[i].name, ps[i].bounds)
  {
    if ps == [] then [] else [ImplParam(ps[0].name, ps[0].bounds)] + ImplParams(ps[1..])
  }

  function TypeArgs(ps: seq<GenericParam>): (r: seq<Ident>)
    ensures |r| == |ps|
    ensures forall i :: 0 <= i < |ps| ==> r[i] == ps[i].name
  {
    if ps == [] then [] else [ps[0].name] + TypeArgs(ps[1..])
  }

  /**
   * `Generics::split_for_impl`: the header declares every parameter with its
   * bounds but not its default, the type is applied to the parameters'
   * names in the same order, and the where-clause is carried over.
   */
  function SplitForImpl(g: Generics): (r: SplitGenerics)
    ensures |r.implGenerics| == |g.params| && |r.tyGenerics| == |g.params|
    ensures forall i :: 0 <= i < |g.params| ==>
              r.implGenerics[i].name == g.params[i].name && r.implGenerics[i].bounds == g.params[i].bounds
    ensures forall i :: 0 <= i < |g.params| ==> r.tyGenerics[i] == g.params[i].name
    ensures r.whereClause == g.whereClause
  {
    SplitGenerics(ImplParams(g.params), TypeArgs(g.params), g.whereClause)
  }

  /** Two generics lists that differ at most in their parameters' default types. */
  predicate SameUpToFallbacks(g1: Generics, g2: Generics) {
    && |g1.params| == |g2.params|
    && (forall i :: 0 <= i < |g1.params| ==>
          g1.params[i].name == g2.params[i].name && g1.params[i].bounds == g2.params[i].bounds)
    && g1.whereClause == g2.whereClause
  }

  /**
   * The split forgets only the parameters' default types: two generics lists
   * split the same way exactly when they agree on everything else.
   */
  lemma SplitIdentifiesGenerics(g1: Generics, g2: Generics)
    ensures SplitForImpl(g1) == SplitForImpl(g2) <==> SameUpToFallbacks(g1, g2)
  {
    var s1, s2 := SplitForImpl(g1), SplitForImpl(g2);
    if SplitForImpl(g1) == SplitForImpl(g2) {
      forall i | 0 <= i < |g1.params|
        ensures g1.params[i].name == g2.params[i].name && g1.params[i].bounds == g2.params[i].bounds
      {
        assert s1.implGenerics[i] == s2.implGenerics[i];
      }
    }
    if SameUpToFallbacks(g1, g2) {
      assert s1.implGenerics == s2.implGenerics;
      assert s1.tyGenerics == s2.tyGenerics;
    }
  }

  /** `Parsed::into_item_struct`. */
  function IntoItemStruct(p: Parsed): (r: ItemStruct)
    ensures r.attrs == p.attrs && r.vis == p.vis && r.ident == p.ident
    ensures r.generics == p.generics && r.semiToken == p.semiToken
    ensures p.fields.Named? <==> r.fields.FieldsNamed?
    ensures p.fields.Unnamed? <==> r.fields.FieldsUnnamed?
    ensures p.fields.Unit? <==> r.fields.FieldsUnit?
    ensures p.fields.Named? ==> |r.fields.named| == |p.fields.named|
    ensures p.fields.Named? ==>
              forall i :: 0 <= i < |p.fields.named| ==> r.fields.named[i] == p.fields.named[i].field
    ensures p.fields.Unnamed? ==> |r.fields.unnamed| == |p.fields.unnamed|
    ensures p.fields.Unnamed? ==>
              forall i :: 0 <= i < |p.fields.unnamed| ==> r.fields.unnamed[i] == p.fields.unnamed[i].field
  {
    var fields := match p.fields
      case Named(fs) => FieldsNamed(StripDefaults(fs))
      case Unnamed(fs) => FieldsUnnamed(StripDefaults(fs))
      case Unit => FieldsUnit;
    ItemStruct(p.attrs, p.vis, p.ident, p.generics, fields, p.semiToken)
  }

  /** `Parsed::impl_default`. */
  function ImplDefault(p: Parsed): (r: DefaultImpl)
    ensures r.selfTy == p.ident
    ensures r.split == SplitForImpl(p.generics)
    ensures p.fields.Named? <==> r.body.SelfBraced?
    ensures p.fields.Unnamed? <==> r.body.SelfParen?
    ensures p.fields.Unit? <==> r.body.SelfUnit?
    ensures p.fields.Named? ==> |r.body.entries| == |p.fields.named|
    ensures p.fields.Unnamed? ==> |r.body.values| == |p.fields.unnamed|
  {
    var body := match p.fields
      case Named(fs) => SelfBraced(NamedDefaults(fs))
      case Unnamed(fs) => SelfParen(UnnamedDefaults(fs))
      case Unit => SelfUnit;
    DefaultImpl(SplitForImpl(p.generics), p.ident, body)
  }
}

=== FILE: wrappers.dfy ===
/** Option and Result, usable with `:-` in functions. */
module Wrappers {

  datatype Option<+T> = None | Some(value: T)

  /** The outcome of a step that can fail, like the host library's `Result`. */
  datatype Result<+R, +E> = Success(value: R) | Failure(error: E) {

    predicate IsFailure() {
      Failure?
    }

    function PropagateFailure<U>(): Result<U, E>
      requires Failure?
    {
      Failure(error)
    }

    function Extract(): R
      requires Success?
    {
      value
    }
  }
}
